=== FILE: README.md ===
# PEtab visualization pipeline, modelled in Dafny

This project models the plotting pipeline of PEtab's visualization module
(`petab/visualize/plotting.py`). It follows four stages:

1. **Spec normalisation.** A visualization table is grouped by plot id into
   one `VisualizationSpec` per plot, in first-seen order. Each
   subplot-level column is collapsed to a single value, and enumerated
   columns are checked against their closed sets. The constructor then
   fills in its defaults.
2. **Figure set-up.** `Figure` chooses where the subplot descriptors come
   from, tags every subplot as a line, bar or scatter plot, and refuses a
   subplot with nothing to draw.
3. **Row selection.** `matches_plot_spec` picks the rows of one subplot at
   one x value. The x values are the conditions of the dataset in order of
   first appearance, or its distinct measurement times in ascending order.
4. **Replicate aggregation.** Each x value gets the mean, the population
   standard deviation, the standard error and the replicates. It also gets
   the noise parameter when the plot shows provided noise. On the
   simulation side, each x value gets the mean simulated value.

Values are `Str(string) | Num(real)`. A row of the visualization table is
a `map<string, Value>`. Rows of the measurement and simulation tables are
`DataProvider.DataRow` records with one field per column the pipeline
reads.
Errors that the code raises are `Failure(e)` results, and warnings are
returned as a list.

Modules:

| module | file |
|---|---|
| `Wrappers` | `wrappers.dfy` |
| `Errors` | `errors.dfy` |
| `Values` | `values.dfy` |
| `Names` | `names.dfy` |
| `Sequences` | `sequences.dfy` |
| `VisSpec` | `vis_spec.dfy` |
| `SpecTable` | `spec_table.dfy` |
| `Statistics` | `statistics.dfy` |
| `DataProvider` | `data_provider.dfy` |
| `Figure` | `figure.dfy` |

`Values` holds the value ordering that `np.unique` sorts by. `Sequences`
holds first-occurrence and sorted-distinct enumeration.

Choices made where the code is silent or inconsistent:
- `np.unique` sorts, so a collapsed column takes its least value. Strings
  are compared by code point. A column that mixes strings and numbers
  cannot be sorted, which is a `TypeError`.
- `df.loc[plot_id, col]` gives a scalar for a plot with one row and a
  column of cells otherwise. This is `Entry = One(v) | Many(vs)`.
- Square roots stay symbolic. `Sqrt(q)` stands for the root of `q`, so the
  standard deviation is `Sqrt(variance)` and the standard error is
  `Sqrt(variance / n)`.
- An empty group has no statistics (`None`) where NumPy yields NaN.
- `get_measurements_to_plot` and `get_simulations_to_plot` use the bare
  names `col_id` (plotting.py:438 and 505), `measurements_df`
  (plotting.py:413) and `plot_spec` (plotting.py:448), which are never
  defined (`NameError`). They are read as the x column chosen at
  plotting.py:408/414, the measurement table and `self.plot_spec` (stored
  at plotting.py:337). `self.simulations_df_df` (plotting.py:494) is an
  attribute that is never set (`AttributeError`); it is read as the
  simulation table. `self.measurements_df` and `self.simulations_df` are
  never assigned either; they are read as the tables the data provider
  holds.
- Both methods call `matches_plot_spec(...)` as a bare name
  (plotting.py:437 and 505), which is a `NameError` since it is a method.
  It is read as `self.matches_plot_spec(...)`.
- `self.plot_spec[DATASET_ID]` (plotting.py:395 and 476) and
  `plot_spec[Y_VALUES]` inside `matches_plot_spec` subscript a
  `VisualizationSpec`, which has no item access. They are read as the
  spec's attributes. `Figure.SelectionOf` reads the spec's dataset id,
  observable, x variable and data plot type into a `PlotSelection` of
  single cells, and fails where the code's comparisons fail.
- The spec pipeline (`SpecTable.Resolve` and everything built on it) uses
  the corrected value check `SpecTable.CheckValue`. It rejects the same
  values as the code, but its message for an unknown `plotTypeSimulation`
  lists `PLOT_TYPES_SIMULATION`, where plotting.py:181 lists
  `PLOT_TYPES_DATA`. The code's own message is `SpecTable.CheckValueAsWritten`
  (see Findings).
- The value check's `ValueError` messages (plotting.py:169-181) name only
  the allowed set. The scale message even reads "xScale and yScale have to
  be one of the following" for either column. The model's
  `Errors.InvalidValue` also carries the column and the rejected value, so
  that a contract can say which cell failed.
- The column names and closed value sets are defined in `petab/C.py`,
  which is not part of this model. Their values follow the PEtab
  visualization format.

## Model

| member | source | states |
|---|---|---|
| VisSpec.AttrOf | petab/visualize/plotting.py:113-115 | Each column name sets the attribute of that name: reading the attribute's name back gives the column. |
| VisSpec.Make | petab/visualize/plotting.py:111-139 | The settings are keyed by name, as `setattr` reads them: a key named like a known attribute is that attribute. The constructor fails exactly when neither a legend entry nor a dataset id is given. Otherwise every given setting is kept unchanged. Each absent attribute gets its default: plot name = plot id, LinePlot, MeanAndSD, time, x offset 0, x label = resolved x values, lin, 'values', y offset 0, legend entry = dataset id. y values, y scale and dataset id are never defaulted, and `figureId` defaults to `fig0`. |
| VisSpec.MakeIdempotent | petab/visualize/plotting.py:116-139 | Rebuilding a spec from its own attributes gives the same spec, so defaulting twice is defaulting once. |
| VisSpec.MakeFromOwnAttributes | petab/visualize/plotting.py:112-139 | A constructed spec, read back as settings, is reproduced exactly by the constructor. |
| VisSpec.MakeKeepsExplicitSettings | tests/test_visualization_new_structure.py:287-303 | With every defaultable attribute given, the spec's attributes are exactly the settings plus `figureId` = `fig0` and `plotId`. |
| VisSpec.AttrOfNameOf | petab/visualize/plotting.py:113-115 | Naming an attribute and setting it by that name gives the same attribute back. |
| Values.Least | petab/visualize/plotting.py:158-164 | The collapsed entry is a cell of the column, and no cell is smaller. |
| Values.LeastUnique | petab/visualize/plotting.py:158-164 | Only one cell can be the least one, so the collapse is determined by the column's cells alone. |
| Sequences.FirstOccurrences | petab/visualize/plotting.py:402-407 | Each distinct value appears exactly once, every value of the input is covered, and values are ordered by their first appearance. |
| Sequences.SortedDistinct | petab/visualize/plotting.py:413 | `np.unique` of the times is strictly ascending and has exactly the input's values. |
| Sequences.StrictlyIncreasingUnique | petab/visualize/plotting.py:413 | A strictly ascending sequence is determined by its set of values. |
| Sequences.SortedDistinctIgnoresOrder | petab/visualize/plotting.py:413 | The sorted distinct times depend only on which times occur, not on row order or repetition. |
| SpecTable.GroupRows | petab/visualize/plotting.py:156 | A plot's group holds only rows of the table with that plot id, and every such row. It is no longer than the table. |
| SpecTable.GroupRowsAppend | petab/visualize/plotting.py:156 | The group of an empty table is empty, and a row appended to the table is appended to its own plot's group and to no other. This fixes table order and repetitions. |
| SpecTable.Plots | petab/visualize/plotting.py:149-152 | The plot ids are distinct. Every row's id is among them, each has a non-empty group, and they come in order of first appearance in the table. |
| SpecTable.ConflictingIffSeveralValues | petab/visualize/plotting.py:158-159 | Two differing cells exist exactly when the column has more than one distinct value (`entry.size > 1`). |
| SpecTable.Collapse | petab/visualize/plotting.py:157-164 | A mixed column fails as unorderable. Otherwise the entry is the least cell, with at most one warning, issued exactly when the cells disagree; the warning names the plot, the column, the distinct values and the chosen one. |
| SpecTable.CheckValue | petab/visualize/plotting.py:166-181 | A value is rejected exactly when its column has a closed set that does not hold it, and the error carries that set, which is all the code's message names. Other columns are never rejected. |
| SpecTable.CheckValueAsWritten | petab/visualize/plotting.py:166-181 | The check as written rejects exactly the values the corrected check rejects. Its error is the same for every column but `plotTypeSimulation`, whose message lists the data plot types. |
| SpecTable.MessageOffersOnlyAcceptedValues | petab/visualize/plotting.py:166-181 | Every value that the corrected error message offers passes the same check. |
| SpecTable.AsWrittenMessageOffersRejectedValue | petab/visualize/plotting.py:177-181 | The message for an unknown simulation plot type offers `MeanAndSD`, which that check rejects. |
| SpecTable.EnumeratedColumnsAreSubplotLevel | petab/visualize/plotting.py:157-181 | Every column with a closed set is subplot-level, so validation only sees collapsed values. |
| SpecTable.Resolve | petab/visualize/plotting.py:156-181 | One cell of the settings succeeds exactly when the column is not subplot-level, or it is orderable and its least value passes the check. A subplot-level column gives its least value. Other columns give the scalar or all cells. At most one warning is issued, and only for disagreeing subplot-level cells. A mixed column fails with `UnorderableValues` (the `TypeError` of `np.unique`). A rejected value fails with `InvalidValue` carrying the column, the collapsed value and the set the check used; the code's message names only the set, and it is the corrected one (see Choices made). |
| SpecTable.BuildSettings | petab/visualize/plotting.py:153-183 | The settings of one plot succeed exactly when every column resolves. Each column's resolved entry sits under its attribute and nothing else is set. The warnings are exactly one per disagreeing subplot-level column. On failure the error is the one of the first column, in column order, that does not resolve. |
| SpecTable.BuildSpec | petab/visualize/plotting.py:153-184 | One plot's spec is built exactly when all its columns resolve and the table has a legend entry or dataset id column. The spec records the plot id and every resolved column. On failure the error is the first failing column's, or the missing legend entry's `AttributeError` once every column resolves. |
| SpecTable.BuildSpecs | petab/visualize/plotting.py:152-185 | The specs are built exactly when all plots resolve and can default their legend entries. There is one spec per plot id, in order, recording the plot id and every resolved column. There is one warning per disagreeing plot and column, and none twice. On failure, without a legend entry or dataset id column, the first plot's error is raised. Otherwise the error is that of the first failing column of the first plot with one. |
| SpecTable.FromDf | petab/visualize/plotting.py:147-185 | A table without a plot id column is a `KeyError`. Otherwise it is accepted exactly when every plot resolves and can default its legend entry. On success there is one spec per distinct plot id in first-seen order, and the warnings are complete and duplicate-free. On failure the error is the first one the loop over plots and columns meets, as for `BuildSpecs`, with the corrected `plotTypeSimulation` message. |
| SpecTable.SingleRowPlotsNeverWarn | petab/visualize/plotting.py:156-164 | A table whose plot ids are all distinct produces no warnings. |
| Statistics.Mean | petab/visualize/plotting.py:445 | `n` copies of the mean add up to the sum of the replicates. |
| Statistics.Variance | petab/visualize/plotting.py:446 | The variance is non-negative, and `n` copies of it equal the squared deviations from the mean (`ddof=0`). |
| Statistics.VarianceShortcut | petab/visualize/plotting.py:446 | The squared deviations from the mean equal the sum of squares less the mean times the sum. |
| Statistics.MeanBetween | petab/visualize/plotting.py:445 | The mean lies between any lower and upper bound of the replicates. |
| Statistics.ConstantReplicates | petab/visualize/plotting.py:445-446 | Identical replicates have that value as mean and zero variance. |
| Statistics.Summarize | petab/visualize/plotting.py:445-467 | For a non-empty group: the mean times `n` is the sum, the squared standard deviation times `n` is the deviation from the mean, and the squared standard error times `n` is the squared standard deviation. The replicates are kept in row order. An empty group has no statistics. |
| Statistics.SummarizeExample | petab/visualize/plotting.py:445-467 | Replicates 1, 2, 3 give mean 2, standard deviation √(2/3) and standard error √(2/9). |
| DataProvider.Matching | petab/visualize/plotting.py:378-390 | A row is selected exactly when its x value is the given one, its dataset is the spec's, and the spec's `yValues` is empty or names the row's observable. |
| DataProvider.SelectRows | petab/visualize/plotting.py:378-390 | The boolean index as positions: ascending, and picking exactly the selected rows in order. |
| DataProvider.XValues | petab/visualize/plotting.py:402-414 | The x values are distinct and are exactly the x values of the dataset's rows. They are strictly ascending times on a time axis, and conditions in order of first appearance otherwise. |
| DataProvider.MeasurementsPartition | petab/visualize/plotting.py:402-443 | The groups of all x values together hold every row of the subplot exactly once. |
| DataProvider.GroupsPartition | petab/visualize/plotting.py:421-443 | Groups at distinct x values that cover every relevant row split those rows without overlap. |
| DataProvider.HitsOnce | petab/visualize/plotting.py:378-390 | Among distinct x values, a row is selected at most once, and exactly once when it is relevant and its x value is listed. |
| DataProvider.CheckNoise | petab/visualize/plotting.py:449-459 | The provided-noise check fails on differing noise parameters (`InconsistentNoise`), else on a string one (`NonNumericNoise`). On success all parameters equal the returned number. |
| DataProvider.BitAnd | petab/visualize/plotting.py:448 | `bool & int` is 1 exactly when the flag is true and the integer is odd. |
| DataProvider.NoiseAsWritten | petab/visualize/plotting.py:448-459 | With the guard as written, the noise check runs, and can fail, only for provided noise on an odd number of selected rows. |
| DataProvider.Noise | petab/visualize/plotting.py:448-459 | The noise check runs for provided noise on every non-empty group. It fails exactly on conflicting or symbolic parameters, and otherwise stores their common value. |
| DataProvider.GuardsAgreeOnOddGroups | petab/visualize/plotting.py:448 | On groups of odd size the written and intended guards behave the same. |
| DataProvider.EvenGroupsSkipNoiseCheck | petab/visualize/plotting.py:448-457 | Two replicates with noise "sigma", or with noises 1 and 2, pass as written and fail as intended. |
| DataProvider.Aggregate | petab/visualize/plotting.py:421-467 | There is one point per x value, in order, with the statistics of that x value's selected rows, and it fails exactly when some group's noise check fails. The error is the noise check's error at the first x value that fails. |
| DataProvider.MeasurementsToPlot | petab/visualize/plotting.py:392-469 | The table fails exactly when some non-empty provided-noise group has conflicting or symbolic noise. Otherwise it has one row per x value, holding the replicates in row order and a mean exactly for non-empty groups. A noise model is present exactly for non-empty provided-noise groups, and it equals every noise parameter of the group. Mean, standard deviation and standard error are those `Summarize` gives the group's values. On failure the error belongs to the first x value with bad noise: `InconsistentNoise` when its parameters differ, else `NonNumericNoise`. |
| DataProvider.MeasurementsToPlotAsWritten | petab/visualize/plotting.py:392-469 | As written, the table fails only at groups of odd size, and only odd-sized provided-noise groups get a noise model. Mean, standard deviation and standard error are those of the group. |
| DataProvider.EvenGroupsEscapeNoiseCheck | petab/visualize/plotting.py:448-457 | When every group has an even size, a group with bad noise is accepted as written and rejected as intended. |
| DataProvider.SimulationsToPlot | petab/visualize/plotting.py:471-512 | There is nothing without a simulation table. Otherwise there is one point per x value of the simulation table, whose value times the group size is the group's sum, absent for an empty group. |
| DataProvider.SimulationAgreesWithSummary | petab/visualize/plotting.py:504-511 | The simulated value at an x is the same mean that the measurement side computes for the same group (line 445), and is absent exactly when that mean is. |
| Figure.SelectSourceAsWritten | petab/visualize/plotting.py:217-232 | A table passed as `vis_spec` fails with an ambiguous truth value before any branch is taken, and a non-empty path is the full spec. |
| Figure.SelectSource | petab/visualize/plotting.py:217-232 | The full spec is taken exactly when the path or table is non-empty. Otherwise the lists are tried in order, and nothing given is `NotEnoughArguments`. |
| Figure.FromLists | petab/visualize/plotting.py:220-232 | Dataset ids, then condition ids, then observable ids, each taken exactly when all before it are empty. With none of them, the result is `TypeError` even when lists of numbers are given. |
| Figure.TableArgumentRefused | petab/visualize/plotting.py:217-219 | A non-empty table as `vis_spec` fails as written and is the full spec as intended. |
| Figure.TableSpecsHaveKinds | petab/visualize/plotting.py:157-164 | Every spec built from a table with a simulation type column can be tagged, since that column is collapsed to one value. |
| Figure.KindOf | petab/visualize/plotting.py:249-257 | `BarPlot` gives the bar class, `ScatterPlot` the scatter class, and any other single value the line class. A column of several values has no truth value. |
| Figure.NewSinglePlot | petab/visualize/plotting.py:331-348 | A subplot with neither measurements nor simulations is a `TypeError`. Otherwise it keeps spec and data, takes the x variable from the spec, and has an empty title and the placeholder labels `xLabel`/`yLabel`. |
| Figure.SelectionOf | petab/visualize/plotting.py:378-448 | A selection is read exactly when the dataset id, x variable, observable and data plot type are each one cell, and it holds those cells. Checked in that order: a missing dataset id is an `AttributeError`, a list of dataset ids the unaligned-Series `ValueError`, a missing observable an `AttributeError`, and any other list has no truth value. |
| Figure.MultiRowPlotsCannotSelect | petab/visualize/plotting.py:153-156 | For any table accepted by `from_df` with a dataset id column, a plot of two or more rows holds a list of dataset ids, so its selection fails with the unaligned-Series `ValueError`. |
| Figure.AddSubplot | petab/visualize/plotting.py:244-259 | The type tag is computed first, then the constructor runs. The subplot is built exactly when both succeed, and it is tagged by its spec. |
| Figure.AddSubplots | petab/visualize/plotting.py:235-238 | A figure is built exactly when every subplot can be. It then has one subplot per spec, in order. Otherwise it fails with the error of the first spec that cannot be drawn. |
| Figure.SelectByVisSpecStub | petab/visualize/plotting.py:323-328 | The selection the data provider offers returns neither measurements nor simulations for any spec. |
| Figure.StubbedSelectionDrawsNothing | petab/visualize/plotting.py:323-328 | With the data provider's selection returning neither side, no figure with a subplot can be built. |

## Left out

- `from_df` sets the plot id as the index of the caller's frame in place (plotting.py:148), a side effect on its argument. The model works on an immutable table.
- File and console I/O: reading tables from paths, the condition and measurement loaders, and the `print` in `from_df`. A path argument is only recorded as chosen.
- `VisualizationSpec_full`: the constructor re-sorts plot ids and nests `from_df`'s lists, and the `from_*` constructors are empty. The full-spec and dataset-id branches of `Figure.__init__` are modelled only as the choice of source.
- The `DataProvider.select_*`, `check_*` and `group_by_*` stubs, which have no bodies. The data a subplot receives is a parameter of `Figure.AddSubplots`, and the stub that `_add_subplot` calls is `Figure.SelectByVisSpecStub`.
- The global `warnings` stream: warnings are returned as a list. When a later plot or column fails, `from_df` has already issued the warnings of the earlier ones through `warnings.warn` (plotting.py:160-163), while `SpecTable.FromDf` returns only the error and those warnings are lost.
- Rendering, the plotter and parser classes that appear only in tests, and the line, bar and scatter subclasses beyond their tag.
- Floating point: values are reals, square roots are symbolic, and NaN for an empty group is `None`. The distinction between integer and float cells is not kept.
- Missing cells: an empty cell of a table read from a file is NaN, which the model cannot represent. Cells are always a string or a number, and measurements always a number. In the code, a blank in a subplot-level text column makes `np.unique` compare a string with a float, which is a `TypeError` (plotting.py:158). A NaN fails every `not in` check of plotting.py:166-181. A blank `yValues` is not `''`, so no row is selected (plotting.py:390). A NaN measurement is skipped by pandas' `mean` and `std` but still counted by `len` for the standard error (plotting.py:445-463).
- The ambiguity `ValueError` in `matches_plot_spec` is constructed but never raised, so it is not modelled.
- `petab/C.py` is not part of this model. Its constants are restated in `Names`.
- DataProvider.XValues: a time axis is taken to mean `xValues == "time"`, as at plotting.py:411. The code has no branch for other x columns: every other `xValues` uses the simulation condition ids (plotting.py:402-414 and 484-491), and so does `XValues`.
- Figure.NewSinglePlot: reads the x variable as the spec's attribute. `plot_spec[X_VALUES]` subscripts a `VisualizationSpec`, which defines no item access.
- DataProvider.MeasurementsToPlot: the replicate statistics are computed on the spec's own selection and the data provider's tables. `SinglePlot` stores `self.plot_spec` (plotting.py:337) but never stores the `measurements_df` or `simulations_df` it reads, and line 448 reads an undefined bare `plot_spec`.
- DataProvider.MeasurementsToPlot: assumes that the measurement and simulation tables have a `datasetId` column and the measurement table a `noiseParameters` column. Both are optional in PEtab. Without `datasetId` the code raises a `KeyError` at plotting.py:399 and 480, and in `matches_plot_spec` at 380, so no subplot can be served. Without `noiseParameters` a provided-noise plot raises a `KeyError` at plotting.py:449 and 453. `MeasurementsToPlot` and `SimulationsToPlot` report success on such tables, because `DataRow` always holds both cells.
- DataProvider.Matching: models the selection for a spec whose dataset id, observable, x variable and data plot type are single cells. `from_df` stores a plot of several rows with lists (Series) for the dataset id and observable. With such a spec the code raises at plotting.py:399 and 380: pandas' "Can only compare identically-labeled Series objects" `ValueError`. A list `yValues` has no truth value at plotting.py:382, and a spec without `yValues` has no such attribute. `Figure.SelectionOf` models these failures, and `Figure.MultiRowPlotsCannotSelect` shows that every multi-row plot of a table with a dataset id column fails. `Matching`, `XValues`, `MeasurementsToPlot` and `SimulationsToPlot` therefore describe only the plots the code can serve.
- Figure.SelectionOf: reads all four cells before any row is selected. The code reads `yValues` and `plotTypeData` only inside the loop over x values, so not at all for a subplot without x values, and never reads `plotTypeData` on the simulation side. A list in those two cells is therefore refused here in cases where the code would return an empty table or the simulations.
- Figure.FromLists: models only which branch of plotting.py:217-232 is taken. The condition-id and observable-id branches (`pass`, plotting.py:224 and 226) leave `self.vis_spec` unset, and `from_dataset_ids` returns `None`. So line 237 fails for every list source in the code, while `FromLists` reports the chosen source as a success.

## Findings

| source | as written | input that shows it | evidently intended | confidence | as-written member | corrected member |
|---|---|---|---|---|---|---|
| petab/visualize/plotting.py:448 | `(plotTypeData == PROVIDED) & sum(subset)` is a bitwise and of a bool with the number of selected rows. It is non-zero only for an odd count. | A "provided" plot with two replicates at one x whose noise parameters are both `sigma`, or are 1.0 and 2.0: no error is raised. | The noise check runs for every non-empty group of a provided-noise plot. | high (not executed) | DataProvider.MeasurementsToPlotAsWritten, DataProvider.EvenGroupsEscapeNoiseCheck | DataProvider.MeasurementsToPlot |
| petab/visualize/plotting.py:217 | `if vis_spec:` asks a DataFrame for its truth value, which pandas refuses with a `ValueError`. | `Figure(conditions, data, vis_spec=<a non-empty visualization table>)` | A table is taken when it is non-empty. | high (not executed) | Figure.SelectSourceAsWritten, Figure.TableArgumentRefused | Figure.SelectSource |
| petab/visualize/plotting.py:177-181 | The error for an unknown `plotTypeSimulation` lists `PLOT_TYPES_DATA`. | `plotTypeSimulation = "weird"`: the message offers `MeanAndSD`, which is rejected in turn. | The message lists `PLOT_TYPES_SIMULATION`. | high (not executed) | SpecTable.CheckValueAsWritten, SpecTable.AsWrittenMessageOffersRejectedValue | SpecTable.CheckValue, SpecTable.MessageOffersOnlyAcceptedValues (used by `SpecTable.Resolve` and `SpecTable.FromDf`) |

=== FILE: data_provider.dfy ===
/** Row selection and replicate aggregation of one subplot. These are the
    methods of the `SinglePlot` class (`matches_plot_spec`,
    `get_measurements_to_plot`, `get_simulations_to_plot`); the code's
    `DataProvider` class, whose selection methods are stubs, only names the
    role they play. The x column is the simulation condition id,
    or the time when the spec's x values are `time`. */
module DataProvider {
  import opened Wrappers
  import opened Values
  import opened Errors
  import opened Names
  import opened Sequences
  import opened Statistics

  /** One row of a measurement or simulation table: `value` is the
      measurement or the simulation, `noise` the noise parameters cell. */
  datatype DataRow = DataRow(
    observableId: string,
    conditionId: string,
    time: real,
    value: real,
    noise: Value,
    datasetId: string)

  /** The single cells of a subplot's spec that select its rows. A number
      compares unequal to every string, as in pandas. */
  datatype PlotSelection = PlotSelection(
    datasetId: Value,
    yValues: Value,
    xValues: Value,
    plotTypeData: Value)

  /** A point on the x axis: an observation time or a condition id. */
  datatype XValue = AtTime(t: real) | AtCondition(c: string)

  predicate TimeAxis(sel: PlotSelection) {
    sel.xValues == Str(TIME)
  }

  /** The cell of the x column of a row. */
  function XOf(sel: PlotSelection, row: DataRow): XValue {
    if TimeAxis(sel) then AtTime(row.time) else AtCondition(row.conditionId)
  }

  predicate InDataset(sel: PlotSelection, row: DataRow) {
    sel.datasetId == Str(row.datasetId)
  }

  /** An empty `yValues` selects every observable. */
  predicate ObservableMatches(sel: PlotSelection, row: DataRow) {
    sel.yValues == Str("") || sel.yValues == Str(row.observableId)
  }

  /** A row of the subplot, at any x. */
  predicate Relevant(sel: PlotSelection, row: DataRow) {
    InDataset(sel, row) && ObservableMatches(sel, row)
  }

  /** `matches_plot_spec` for one row: the x column equals `x`, the dataset
      is the spec's, and the observable is the spec's `yValues` unless that
      is empty. The check for several observables under an empty `yValues`
      builds a `ValueError` it never raises, so it selects nothing less. */
  predicate Matches(sel: PlotSelection, row: DataRow, x: XValue) {
    XOf(sel, row) == x && Relevant(sel, row)
  }

  /** The rows `matches_plot_spec` selects, in row order. */
  function Matching(sel: PlotSelection, rows: seq<DataRow>, x: XValue): (g: seq<DataRow>)
    ensures |g| <= |rows|
    ensures forall r | r in g :: r in rows && Matches(sel, r, x)
    ensures forall r | r in rows && Matches(sel, r, x) :: r in g
  {
    if |rows| == 0 then []
    else
      var init := Matching(sel, rows[..|rows| - 1], x);
      var last := rows[|rows| - 1];
      assert rows == rows[..|rows| - 1] + [last];
      if Matches(sel, last, x) then init + [last] else init
  }

  /** The rows of the subplot at any x, in row order. */
  function RelevantRows(sel: PlotSelection, rows: seq<DataRow>): (g: seq<DataRow>)
    ensures forall r | r in g :: r in rows && Relevant(sel, r)
    ensures forall r | r in rows && Relevant(sel, r) :: r in g
  {
    if |rows| == 0 then []
    else
      var init := RelevantRows(sel, rows[..|rows| - 1]);
      var last := rows[|rows| - 1];
      assert rows == rows[..|rows| - 1] + [last];
      if Relevant(sel, last) then init + [last] else init
  }

  /** The rows of the spec's dataset, in row order. */
  function DatasetRows(sel: PlotSelection, rows: seq<DataRow>): (g: seq<DataRow>)
    ensures forall r | r in g :: r in rows && InDataset(sel, r)
    ensures forall r | r in rows && InDataset(sel, r) :: r in g
  {
    if |rows| == 0 then []
    else if InDataset(sel, rows[0]) then [rows[0]] + DatasetRows(sel, rows[1..])
    else DatasetRows(sel, rows[1..])
  }

  function ValuesOf(rows: seq<DataRow>): (vs: seq<real>)
    ensures |vs| == |rows|
    ensures forall i | 0 <= i < |rows| :: vs[i] == rows[i].value
  {
    if |rows| == 0 then [] else [rows[0].value] + ValuesOf(rows[1..])
  }

  function NoisesOf(rows: seq<DataRow>): (ns: seq<Value>)
    ensures |ns| == |rows|
    ensures forall i | 0 <= i < |rows| :: ns[i] == rows[i].noise
  {
    if |rows| == 0 then [] else [rows[0].noise] + NoisesOf(rows[1..])
  }

  function TimesOf(rows: seq<DataRow>): (ts: seq<real>)
    ensures |ts| == |rows|
    ensures forall i | 0 <= i < |rows| :: ts[i] == rows[i].time
  {
    if |rows| == 0 then [] else [rows[0].time] + TimesOf(rows[1..])
  }

  function ConditionsOf(rows: seq<DataRow>): (cs: seq<string>)
    ensures |cs| == |rows|
    ensures forall i | 0 <= i < |rows| :: cs[i] == rows[i].conditionId
  {
    if |rows| == 0 then [] else [rows[0].conditionId] + ConditionsOf(rows[1..])
  }

  function AtTimes(ts: seq<real>): (xs: seq<XValue>)
    ensures |xs| == |ts|
    ensures forall i | 0 <= i < |ts| :: xs[i] == AtTime(ts[i])
  {
    if |ts| == 0 then [] else [AtTime(ts[0])] + AtTimes(ts[1..])
  }

  /** The x column of each row, in row order. */
  function XsOf(sel: PlotSelection, rows: seq<DataRow>): (xs: seq<XValue>)
    ensures |xs| == |rows|
    ensures forall i | 0 <= i < |rows| :: xs[i] == XOf(sel, rows[i])
  {
    if |rows| == 0 then [] else [XOf(sel, rows[0])] + XsOf(sel, rows[1..])
  }

  /** The x values of a subplot, taken from the rows of its dataset: the
      distinct times in ascending order (`np.unique`), or the distinct
      condition ids in order of first appearance (`np.unique` with
      `return_index`, re-sorted by index). */
  function XValues(sel: PlotSelection, rows: seq<DataRow>): (xs: seq<XValue>)
    ensures Distinct(xs)
    ensures forall x :: x in xs <==> x in XsOf(sel, DatasetRows(sel, rows))
    ensures TimeAxis(sel) ==> forall i | 0 <= i < |xs| :: xs[i].AtTime?
    ensures TimeAxis(sel) ==> forall i, j | 0 <= i < j < |xs| :: xs[i].t < xs[j].t
    ensures !TimeAxis(sel) ==> forall i, j | 0 <= i < j < |xs| ::
              IndexOf(XsOf(sel, DatasetRows(sel, rows)), xs[i]) < IndexOf(XsOf(sel, DatasetRows(sel, rows)), xs[j])
  {
    var ds := DatasetRows(sel, rows);
    if TimeAxis(sel) then
      var xs := AtTimes(SortedDistinct(TimesOf(ds)));
      TimesCover(sel, ds);
      xs
    else
      FirstOccurrences(XsOf(sel, ds))
  }

  lemma TimesCover(sel: PlotSelection, ds: seq<DataRow>)
    requires TimeAxis(sel)
    ensures var xs := AtTimes(SortedDistinct(TimesOf(ds)));
      forall x :: x in xs <==> x in XsOf(sel, ds)
  {
    forall x
      ensures x in AtTimes(SortedDistinct(TimesOf(ds))) <==> x in XsOf(sel, ds)
    {
      if x in AtTimes(SortedDistinct(TimesOf(ds))) {
        TimeOfRow(sel, ds, x);
      }
      if x in XsOf(sel, ds) {
        RowOfTime(sel, ds, x);
      }
    }
  }

  lemma TimeOfRow(sel: PlotSelection, ds: seq<DataRow>, x: XValue)
    requires TimeAxis(sel) && x in AtTimes(SortedDistinct(TimesOf(ds)))
    ensures x in XsOf(sel, ds)
  {
    var ts := SortedDistinct(TimesOf(ds));
    var i :| 0 <= i < |ts| && AtTimes(ts)[i] == x;
    assert ts[i] in TimesOf(ds);
    var k :| 0 <= k < |ds| && TimesOf(ds)[k] == ts[i];
    assert XsOf(sel, ds)[k] == x;
  }

  lemma RowOfTime(sel: PlotSelection, ds: seq<DataRow>, x: XValue)
    requires TimeAxis(sel) && x in XsOf(sel, ds)
    ensures x in AtTimes(SortedDistinct(TimesOf(ds)))
  {
    var ts := SortedDistinct(TimesOf(ds));
    var k :| 0 <= k < |ds| && XsOf(sel, ds)[k] == x;
    assert TimesOf(ds)[k] in ts;
    var i :| 0 <= i < |ts| && ts[i] == TimesOf(ds)[k];
    assert AtTimes(ts)[i] == x;
  }

  /** Every row of the dataset lies at one of the x values. */
  lemma DatasetRowsHaveX(sel: PlotSelection, rows: seq<DataRow>, r: DataRow)
    requires r in rows && InDataset(sel, r)
    ensures XOf(sel, r) in XValues(sel, rows)
  {
  }

  /** `plotTypeData == PROVIDED`: the plot shows the noise parameters of
      the measurement table. */
  predicate ProvidedNoise(sel: PlotSelection) {
    sel.plotTypeData == Str(PROVIDED)
  }

  /** The provided-noise check once its guard lets a group through: the
      noise parameters must agree (`.unique()` has one element) and be
      numeric; the first one becomes the noise model. */
  function CheckNoise(noises: seq<Value>): (r: Result<Option<real>, Error>)
    requires |noises| > 0
    ensures r.Failure? <==> Conflicting(noises) || noises[0].Str?
    ensures r.Failure? ==> r.error == (if Conflicting(noises) then InconsistentNoise else NonNumericNoise)
    ensures r.Success? ==> r.value.Some? && forall i | 0 <= i < |noises| :: noises[i] == Num(r.value.value)
  {
    if Conflicting(noises) then Failure(InconsistentNoise)
    else if noises[0].Str? then Failure(NonNumericNoise)
    else
      assert forall i | 0 <= i < |noises| :: noises[i] == noises[0];
      Success(Some(noises[0].x))
  }

  /** Python's `&` on a `bool` and an `int`: the bool counts as 0 or 1, so
      `True & n` is the lowest bit of `n`. */
  function BitAnd(flag: bool, n: nat): (b: nat)
    ensures b <= 1
    ensures b == 1 <==> flag && n % 2 == 1
  {
    if flag then n % 2 else 0
  }

  /** The guard as written: `(plotTypeData == PROVIDED) & sum(subset)`, the
      provided flag and-ed with the number of selected rows. */
  function NoiseAsWritten(provided: bool, noises: seq<Value>): (r: Result<Option<real>, Error>)
    ensures r.Failure? <==> provided && |noises| % 2 == 1 && (Conflicting(noises) || noises[0].Str?)
    ensures r.Success? ==> (r.value.Some? <==> provided && |noises| % 2 == 1)
  {
    if BitAnd(provided, |noises|) != 0 then CheckNoise(noises) else Success(None)
  }

  /** The guard as evidently intended: provided noise and a non-empty group. */
  function Noise(provided: bool, noises: seq<Value>): (r: Result<Option<real>, Error>)
    ensures r.Failure? <==> provided && |noises| > 0 && (Conflicting(noises) || noises[0].Str?)
    ensures r.Success? ==> (r.value.Some? <==> provided && |noises| > 0)
    ensures r.Success? && r.value.Some? ==> forall i | 0 <= i < |noises| :: noises[i] == Num(r.value.value)
  {
    if provided && |noises| > 0 then CheckNoise(noises) else Success(None)
  }

  /** Two replicates with the same symbolic noise parameter pass the check as
      written, and so do two with different numeric ones; the intended check
      rejects both. */
  lemma EvenGroupsSkipNoiseCheck()
    ensures NoiseAsWritten(true, [Str("sigma"), Str("sigma")]) == Success(None)
    ensures Noise(true, [Str("sigma"), Str("sigma")]) == Failure(NonNumericNoise)
    ensures NoiseAsWritten(true, [Num(1.0), Num(2.0)]) == Success(None)
    ensures Noise(true, [Num(1.0), Num(2.0)]) == Failure(InconsistentNoise)
  {
    assert Conflicting([Num(1.0), Num(2.0)]) by {
      assert [Num(1.0), Num(2.0)][0] != [Num(1.0), Num(2.0)][1];
    }
    assert !Conflicting([Str("sigma"), Str("sigma")]);
  }

  /** On groups of odd size the two guards agree. */
  lemma GuardsAgreeOnOddGroups(provided: bool, noises: seq<Value>)
    requires |noises| % 2 == 1
    ensures NoiseAsWritten(provided, noises) == Noise(provided, noises)
  {
  }

  /** The noise check of the group at `x`, with the guard as written or as
      intended. */
  function NoiseAt(sel: PlotSelection, rows: seq<DataRow>, x: XValue, asWritten: bool): Result<Option<real>, Error> {
    var noises := NoisesOf(Matching(sel, rows, x));
    if asWritten then NoiseAsWritten(ProvidedNoise(sel), noises)
    else Noise(ProvidedNoise(sel), noises)
  }

  /** The position of the first of `xs` whose noise check fails, or `|xs|`
      when none does. */
  function FirstNoiseFailure(sel: PlotSelection, rows: seq<DataRow>, xs: seq<XValue>, asWritten: bool): (k: nat)
    ensures k <= |xs|
    ensures forall j | 0 <= j < k :: NoiseAt(sel, rows, xs[j], asWritten).Success?
    ensures k < |xs| ==> NoiseAt(sel, rows, xs[k], asWritten).Failure?
  {
    if |xs| == 0 then 0
    else if NoiseAt(sel, rows, xs[0], asWritten).Failure? then 0
    else 1 + FirstNoiseFailure(sel, rows, xs[1..], asWritten)
  }

  /** The statistics of one x value of a measurement table. */
  datatype Point = Point(x: XValue, stats: Replicates)

  /** The loop of `get_measurements_to_plot` over the x values `xs`: one
      point per x value, in order, holding the statistics of the rows
      `matches_plot_spec` selects there; fails at the first group the noise
      check rejects. */
  function Aggregate(sel: PlotSelection, rows: seq<DataRow>, xs: seq<XValue>, asWritten: bool): (r: Result<seq<Point>, Error>)
    ensures r.Failure? <==> exists i | 0 <= i < |xs| :: NoiseAt(sel, rows, xs[i], asWritten).Failure?
    ensures r.Success? ==> |r.value| == |xs|
    ensures r.Success? ==> forall i | 0 <= i < |xs| :: SummarizedAt(sel, rows, xs[i], asWritten, r.value[i])
    ensures r.Failure? ==>
              var k := FirstNoiseFailure(sel, rows, xs, asWritten);
              k < |xs| && r.error == NoiseAt(sel, rows, xs[k], asWritten).error
  {
    if |xs| == 0 then Success([])
    else
      match NoiseAt(sel, rows, xs[0], asWritten)
      case Failure(e) => Failure(e)
      case Success(noise) =>
        match Aggregate(sel, rows, xs[1..], asWritten)
        case Failure(e) => Failure(e)
        case Success(rest) =>
          var p := Point(xs[0], Summarize(ValuesOf(Matching(sel, rows, xs[0])), noise));
          SummarizedCons(sel, rows, xs, asWritten, p, rest);
          Success([p] + rest)
  }

  /** `p` is the point of `x`: the statistics of the rows selected there,
      with the noise model the check yields. */
  predicate SummarizedAt(sel: PlotSelection, rows: seq<DataRow>, x: XValue, asWritten: bool, p: Point) {
    && NoiseAt(sel, rows, x, asWritten).Success?
    && p.x == x
    && p.stats == Summarize(ValuesOf(Matching(sel, rows, x)), NoiseAt(sel, rows, x, asWritten).value)
  }

  lemma SummarizedCons(sel: PlotSelection, rows: seq<DataRow>, xs: seq<XValue>, asWritten: bool, p: Point, rest: seq<Point>)
    requires |xs| > 0 && |rest| == |xs| - 1
    requires SummarizedAt(sel, rows, xs[0], asWritten, p)
    requires forall i | 0 <= i < |rest| :: SummarizedAt(sel, rows, xs[1..][i], asWritten, rest[i])
    ensures forall i | 0 <= i < |xs| :: SummarizedAt(sel, rows, xs[i], asWritten, ([p] + rest)[i])
  {
  }

  /** A group in provided-noise mode whose noise parameters the intended
      check rejects. */
  predicate BadNoise(sel: PlotSelection, g: seq<DataRow>) {
    ProvidedNoise(sel) && |g| > 0 && (Conflicting(NoisesOf(g)) || g[0].noise.Str?)
  }

  /** `get_measurements_to_plot` with the intended noise guard: one point per
      x value of the subplot, holding the replicates selected there, their
      statistics, and (in provided mode, for a non-empty group) the common
      numeric noise parameter. Fails exactly when, in provided mode, some
      non-empty group has differing or symbolic noise parameters. */
  function MeasurementsToPlot(sel: PlotSelection, rows: seq<DataRow>): (r: Result<seq<Point>, Error>)
    ensures r.Failure? <==> exists i | 0 <= i < |XValues(sel, rows)| :: BadNoise(sel, Matching(sel, rows, XValues(sel, rows)[i]))
    ensures r.Success? ==> |r.value| == |XValues(sel, rows)|
    ensures r.Success? ==> forall i | 0 <= i < |r.value| ::
              var g := Matching(sel, rows, XValues(sel, rows)[i]);
              && r.value[i].x == XValues(sel, rows)[i]
              && r.value[i].stats.repl == ValuesOf(g)
              && (r.value[i].stats.mean.Some? <==> |g| > 0)
              && (r.value[i].stats.noiseModel.Some? <==> ProvidedNoise(sel) && |g| > 0)
              && (r.value[i].stats.noiseModel.Some? ==>
                    forall k | 0 <= k < |g| :: g[k].noise == Num(r.value[i].stats.noiseModel.value))
    ensures r.Success? ==> forall i | 0 <= i < |r.value| ::
              r.value[i].stats == Summarize(ValuesOf(Matching(sel, rows, XValues(sel, rows)[i])), r.value[i].stats.noiseModel)
    ensures r.Failure? ==> FirstNoiseFailure(sel, rows, XValues(sel, rows), false) < |XValues(sel, rows)|
    ensures r.Failure? ==>
              var xs := XValues(sel, rows);
              var k := FirstNoiseFailure(sel, rows, xs, false);
              var g := Matching(sel, rows, xs[k]);
              && BadNoise(sel, g)
              && (forall j | 0 <= j < k :: !BadNoise(sel, Matching(sel, rows, xs[j])))
              && r.error == (if Conflicting(NoisesOf(g)) then InconsistentNoise else NonNumericNoise)
  {
    var xs := XValues(sel, rows);
    var r := Aggregate(sel, rows, xs, false);
    if r.Success? then
      IntendedPoints(sel, rows, xs, r.value);
      r
    else
      IntendedNoiseAtEach(sel, rows, xs);
      r
  }

  /** `get_measurements_to_plot` as written: the noise check runs only for
      groups of odd size. */
  function MeasurementsToPlotAsWritten(sel: PlotSelection, rows: seq<DataRow>): (r: Result<seq<Point>, Error>)
    ensures r.Failure? <==> exists i | 0 <= i < |XValues(sel, rows)| ::
              var g := Matching(sel, rows, XValues(sel, rows)[i]);
              BadNoise(sel, g) && |g| % 2 == 1
    ensures r.Success? ==> |r.value| == |XValues(sel, rows)|
    ensures r.Success? ==> forall i | 0 <= i < |r.value| ::
              var g := Matching(sel, rows, XValues(sel, rows)[i]);
              && r.value[i].x == XValues(sel, rows)[i]
              && r.value[i].stats.repl == ValuesOf(g)
              && (r.value[i].stats.noiseModel.Some? <==> ProvidedNoise(sel) && |g| % 2 == 1)
    ensures r.Success? ==> forall i | 0 <= i < |r.value| ::
              r.value[i].stats == Summarize(ValuesOf(Matching(sel, rows, XValues(sel, rows)[i])), r.value[i].stats.noiseModel)
  {
    var xs := XValues(sel, rows);
    var r := Aggregate(sel, rows, xs, true);
    if r.Success? then
      PointsAsWritten(sel, rows, xs, r.value);
      r
    else
      NoiseAsWrittenAtEach(sel, rows, xs);
      r
  }

  /** The points of the intended pipeline, read back group by group. */
  lemma IntendedPoints(sel: PlotSelection, rows: seq<DataRow>, xs: seq<XValue>, ps: seq<Point>)
    requires |ps| == |xs| && forall i | 0 <= i < |xs| :: SummarizedAt(sel, rows, xs[i], false, ps[i])
    ensures forall i | 0 <= i < |ps| ::
              var g := Matching(sel, rows, xs[i]);
              && ps[i].x == xs[i]
              && ps[i].stats.repl == ValuesOf(g)
              && (ps[i].stats.mean.Some? <==> |g| > 0)
              && (ps[i].stats.noiseModel.Some? <==> ProvidedNoise(sel) && |g| > 0)
              && (ps[i].stats.noiseModel.Some? ==> forall k | 0 <= k < |g| :: g[k].noise == Num(ps[i].stats.noiseModel.value))
              && ps[i].stats == Summarize(ValuesOf(g), ps[i].stats.noiseModel)
  {
    forall i | 0 <= i < |ps|
      ensures IntendedPoint(sel, rows, xs[i], ps[i])
    {
      IntendedPointAt(sel, rows, xs[i], ps[i]);
    }
  }

  predicate IntendedPoint(sel: PlotSelection, rows: seq<DataRow>, x: XValue, p: Point) {
    var g := Matching(sel, rows, x);
    && p.x == x
    && p.stats.repl == ValuesOf(g)
    && (p.stats.mean.Some? <==> |g| > 0)
    && (p.stats.noiseModel.Some? <==> ProvidedNoise(sel) && |g| > 0)
    && (p.stats.noiseModel.Some? ==> forall k | 0 <= k < |g| :: g[k].noise == Num(p.stats.noiseModel.value))
    && p.stats == Summarize(ValuesOf(g), p.stats.noiseModel)
  }

  lemma IntendedPointAt(sel: PlotSelection, rows: seq<DataRow>, x: XValue, p: Point)
    requires SummarizedAt(sel, rows, x, false, p)
    ensures IntendedPoint(sel, rows, x, p)
  {
  }

  /** The points of the pipeline as written, read back group by group. */
  lemma PointsAsWritten(sel: PlotSelection, rows: seq<DataRow>, xs: seq<XValue>, ps: seq<Point>)
    requires |ps| == |xs| && forall i | 0 <= i < |xs| :: SummarizedAt(sel, rows, xs[i], true, ps[i])
    ensures forall i | 0 <= i < |ps| ::
              var g := Matching(sel, rows, xs[i]);
              && ps[i].x == xs[i]
              && ps[i].stats.repl == ValuesOf(g)
              && (ps[i].stats.noiseModel.Some? <==> ProvidedNoise(sel) && |g| % 2 == 1)
              && ps[i].stats == Summarize(ValuesOf(g), ps[i].stats.noiseModel)
  {
    forall i | 0 <= i < |ps|
      ensures PointAsWritten(sel, rows, xs[i], ps[i])
    {
      PointAsWrittenAt(sel, rows, xs[i], ps[i]);
    }
  }

  predicate PointAsWritten(sel: PlotSelection, rows: seq<DataRow>, x: XValue, p: Point) {
    var g := Matching(sel, rows, x);
    && p.x == x
    && p.stats.repl == ValuesOf(g)
    && (p.stats.noiseModel.Some? <==> ProvidedNoise(sel) && |g| % 2 == 1)
    && p.stats == Summarize(ValuesOf(g), p.stats.noiseModel)
  }

  lemma PointAsWrittenAt(sel: PlotSelection, rows: seq<DataRow>, x: XValue, p: Point)
    requires SummarizedAt(sel, rows, x, true, p)
    ensures PointAsWritten(sel, rows, x, p)
  {
  }

  lemma IntendedNoiseAtEach(sel: PlotSelection, rows: seq<DataRow>, xs: seq<XValue>)
    ensures forall i | 0 <= i < |xs| ::
              var g := Matching(sel, rows, xs[i]);
              var n := NoiseAt(sel, rows, xs[i], false);
              && (n.Failure? <==> BadNoise(sel, g))
              && (n.Success? ==> (n.value.Some? <==> ProvidedNoise(sel) && |g| > 0))
              && (n.Success? && n.value.Some? ==> forall k | 0 <= k < |g| :: g[k].noise == Num(n.value.value))
  {
  }

  lemma NoiseAsWrittenAtEach(sel: PlotSelection, rows: seq<DataRow>, xs: seq<XValue>)
    ensures forall i | 0 <= i < |xs| ::
              var g := Matching(sel, rows, xs[i]);
              var n := NoiseAt(sel, rows, xs[i], true);
              && (n.Failure? <==> BadNoise(sel, g) && |g| % 2 == 1)
              && (n.Success? ==> (n.value.Some? <==> ProvidedNoise(sel) && |g| % 2 == 1))
  {
  }

  /** In provided mode, a subplot whose groups all have an even number of
      replicates is plotted by the code as written even when some group's
      noise parameters are symbolic or differ; the intended check stops. */
  lemma EvenGroupsEscapeNoiseCheck(sel: PlotSelection, rows: seq<DataRow>, i: nat)
    requires i < |XValues(sel, rows)|
    requires BadNoise(sel, Matching(sel, rows, XValues(sel, rows)[i]))
    requires forall j | 0 <= j < |XValues(sel, rows)| :: |Matching(sel, rows, XValues(sel, rows)[j])| % 2 == 0
    ensures MeasurementsToPlotAsWritten(sel, rows).Success?
    ensures MeasurementsToPlot(sel, rows).Failure?
  {
  }

  /** The number of rows selected over all of `xs`. */
  function GroupSizes(sel: PlotSelection, rows: seq<DataRow>, xs: seq<XValue>): nat {
    if |xs| == 0 then 0 else |Matching(sel, rows, xs[0])| + GroupSizes(sel, rows, xs[1..])
  }

  /** The number of x values in `xs` at which `r` is selected. */
  function Hits(sel: PlotSelection, r: DataRow, xs: seq<XValue>): nat {
    if |xs| == 0 then 0 else (if Matches(sel, r, xs[0]) then 1 else 0) + Hits(sel, r, xs[1..])
  }

  /** Among distinct x values a row is selected at most once: exactly when
      it is relevant and its x value is among them. */
  lemma {:induction false} HitsOnce(sel: PlotSelection, r: DataRow, xs: seq<XValue>)
    requires Distinct(xs)
    ensures Hits(sel, r, xs) == if Relevant(sel, r) && XOf(sel, r) in xs then 1 else 0
  {
    if |xs| > 0 {
      assert Distinct(xs[1..]);
      HitsOnce(sel, r, xs[1..]);
      assert xs == [xs[0]] + xs[1..];
      assert xs[0] !in xs[1..];
    }
  }

  /** Appending a row adds it to the groups of the x values it matches. */
  lemma {:induction false} GroupSizesAppend(sel: PlotSelection, rows: seq<DataRow>, r: DataRow, xs: seq<XValue>)
    ensures GroupSizes(sel, rows + [r], xs) == GroupSizes(sel, rows, xs) + Hits(sel, r, xs)
  {
    if |xs| > 0 {
      GroupSizesAppend(sel, rows, r, xs[1..]);
      assert (rows + [r])[..|rows|] == rows;
    }
  }

  /** The groups at distinct x values that cover every relevant row split the
      relevant rows: each is counted exactly once. */
  lemma {:induction false} GroupsPartition(sel: PlotSelection, rows: seq<DataRow>, xs: seq<XValue>)
    requires Distinct(xs)
    requires forall r | r in rows && Relevant(sel, r) :: XOf(sel, r) in xs
    ensures GroupSizes(sel, rows, xs) == |RelevantRows(sel, rows)|
  {
    if |rows| == 0 {
      GroupSizesEmpty(sel, rows, xs);
    } else {
      var init := rows[..|rows| - 1];
      var last := rows[|rows| - 1];
      assert rows == init + [last];
      GroupsPartition(sel, init, xs);
      GroupSizesAppend(sel, init, last, xs);
      HitsOnce(sel, last, xs);
    }
  }

  lemma {:induction false} GroupSizesEmpty(sel: PlotSelection, rows: seq<DataRow>, xs: seq<XValue>)
    requires |rows| == 0
    ensures GroupSizes(sel, rows, xs) == 0
  {
    if |xs| > 0 {
      GroupSizesEmpty(sel, rows, xs[1..]);
    }
  }

  /** Every measurement of the subplot (its dataset, its observable) lands in
      exactly one x group of `get_measurements_to_plot`. */
  lemma MeasurementsPartition(sel: PlotSelection, rows: seq<DataRow>)
    ensures GroupSizes(sel, rows, XValues(sel, rows)) == |RelevantRows(sel, rows)|
  {
    forall r | r in rows && Relevant(sel, r)
      ensures XOf(sel, r) in XValues(sel, rows)
    {
      DatasetRowsHaveX(sel, rows, r);
    }
    GroupsPartition(sel, rows, XValues(sel, rows));
  }

  /** Extending the table by one row extends each group by that row when
      it matches. */
  lemma MatchingStep(sel: PlotSelection, rows: seq<DataRow>, i: nat, x: XValue)
    requires i < |rows|
    ensures Matching(sel, rows[..i + 1], x)
            == Matching(sel, rows[..i], x) + (if Matches(sel, rows[i], x) then [rows[i]] else [])
  {
    assert rows[..i + 1][..i] == rows[..i];
  }

  /** The boolean index `matches_plot_spec` builds, as the positions it
      selects: ascending, and picking exactly the rows `Matching` keeps. */
  method SelectRows(sel: PlotSelection, rows: seq<DataRow>, x: XValue) returns (idx: seq<nat>)
    ensures |idx| == |Matching(sel, rows, x)|
    ensures forall k | 0 <= k < |idx| :: idx[k] < |rows| && rows[idx[k]] == Matching(sel, rows, x)[k]
    ensures forall k, l | 0 <= k < l < |idx| :: idx[k] < idx[l]
  {
    idx := [];
    ghost var g: seq<DataRow> := [];
    var i := 0;
    while i < |rows|
      invariant 0 <= i <= |rows|
      invariant g == Matching(sel, rows[..i], x)
      invariant Positions(rows, i, idx, g)
    {
      idx, g := Step(sel, rows, x, i, idx, g);
      i := i + 1;
    }
    assert rows[..|rows|] == rows;
  }

  /** `idx` lists, in ascending order and below `i`, the positions of the
      rows of `g`. */
  predicate Positions(rows: seq<DataRow>, i: nat, idx: seq<nat>, g: seq<DataRow>) {
    && |idx| == |g|
    && (forall k | 0 <= k < |idx| :: idx[k] < i && idx[k] < |rows| && rows[idx[k]] == g[k])
    && (forall k, l | 0 <= k < l < |idx| :: idx[k] < idx[l])
  }

  /** One iteration of the selection: row `i` is added when it matches. */
  method Step(sel: PlotSelection, rows: seq<DataRow>, x: XValue, i: nat, idx: seq<nat>, ghost g: seq<DataRow>)
    returns (idx': seq<nat>, ghost g': seq<DataRow>)
    requires i < |rows| && g == Matching(sel, rows[..i], x) && Positions(rows, i, idx, g)
    ensures g' == Matching(sel, rows[..i + 1], x) && Positions(rows, i + 1, idx', g')
  {
    MatchingStep(sel, rows, i, x);
    if Matches(sel, rows[i], x) {
      idx', g' := idx + [i], g + [rows[i]];
    } else {
      idx', g' := idx, g;
    }
  }

  /** The simulated value of one x value: the mean of the simulations
      selected there, none for an empty group. */
  datatype SimPoint = SimPoint(x: XValue, sim: Option<real>)

  /** `m` is `np.mean(g)`, absent for an empty group. */
  predicate MeanOf(g: seq<real>, m: Option<real>) {
    && (m.Some? <==> |g| > 0)
    && (m.Some? ==> m.value * (|g| as real) == Sum(g))
  }

  function MeanOrNone(g: seq<real>): (m: Option<real>)
    ensures MeanOf(g, m)
  {
    if |g| > 0 then Some(Mean(g)) else None
  }

  /** `p` is the simulation point of `x`: the mean of the simulated values
      selected at `x`, absent when none is. */
  predicate SimulatedAt(sel: PlotSelection, sims: seq<DataRow>, x: XValue, p: SimPoint) {
    p.x == x && MeanOf(ValuesOf(Matching(sel, sims, x)), p.sim)
  }

  /** `np.mean` of the simulations selected at `x`. */
  function SimulateAt(sel: PlotSelection, sims: seq<DataRow>, x: XValue): (p: SimPoint)
    ensures SimulatedAt(sel, sims, x, p)
  {
    SimPoint(x, MeanOrNone(ValuesOf(Matching(sel, sims, x))))
  }

  function SimulatePoints(sel: PlotSelection, sims: seq<DataRow>, xs: seq<XValue>): (ps: seq<SimPoint>)
    ensures |ps| == |xs|
    ensures forall i | 0 <= i < |xs| :: SimulatedAt(sel, sims, xs[i], ps[i])
  {
    if |xs| == 0 then []
    else
      var rest := SimulatePoints(sel, sims, xs[1..]);
      SimulatedCons(sel, sims, xs, SimulateAt(sel, sims, xs[0]), rest);
      [SimulateAt(sel, sims, xs[0])] + rest
  }

  lemma SimulatedCons(sel: PlotSelection, sims: seq<DataRow>, xs: seq<XValue>, p: SimPoint, rest: seq<SimPoint>)
    requires |xs| > 0 && |rest| == |xs| - 1
    requires SimulatedAt(sel, sims, xs[0], p)
    requires forall i | 0 <= i < |rest| :: SimulatedAt(sel, sims, xs[1..][i], rest[i])
    ensures forall i | 0 <= i < |xs| :: SimulatedAt(sel, sims, xs[i], ([p] + rest)[i])
  {
  }

  /** `get_simulations_to_plot`: nothing without a simulation table,
      otherwise the mean simulation at each x value of the table's dataset
      rows. */
  function SimulationsToPlot(sel: PlotSelection, sims: Option<seq<DataRow>>): (r: Option<seq<SimPoint>>)
    ensures r.None? <==> sims.None?
    ensures r.Some? ==> |r.value| == |XValues(sel, sims.value)|
    ensures r.Some? ==> forall i | 0 <= i < |r.value| ::
              SimulatedAt(sel, sims.value, XValues(sel, sims.value)[i], r.value[i])
  {
    match sims
    case None => None
    case Some(table) => Some(SimulatePoints(sel, table, XValues(sel, table)))
  }

  /** The simulation side averages exactly as the measurement side does:
      a simulation point's value is the mean `Summarize` gives the same
      group. */
  lemma SimulationAgreesWithSummary(sel: PlotSelection, sims: seq<DataRow>, x: XValue, noise: Option<real>)
    ensures SimulateAt(sel, sims, x).sim == Summarize(ValuesOf(Matching(sel, sims, x)), noise).mean
  {
    var g := ValuesOf(Matching(sel, sims, x));
    MeanOfIsSummaryMean(g, SimulateAt(sel, sims, x).sim, noise);
  }

  /** `MeanOf` pins the mean down: it is the one `Summarize` reports. */
  lemma MeanOfIsSummaryMean(g: seq<real>, m: Option<real>, noise: Option<real>)
    requires MeanOf(g, m)
    ensures m == Summarize(g, noise).mean
  {
    if |g| > 0 {
      MeanDetermined(m.value, Summarize(g, noise).mean.value, |g| as real, Sum(g));
    }
  }

  /** A number is determined by its product with a positive count. */
  lemma MeanDetermined(m1: real, m2: real, n: real, s: real)
    requires n > 0.0 && m1 * n == s && m2 * n == s
    ensures m1 == m2
  {
    assert (m1 - m2) * n == 0.0;
  }
}

=== FILE: errors.dfy ===
/** The exceptions raised by the plotting pipeline, as data. */
module Errors {
  import opened Values

  datatype Error =
    /** `KeyError` from `set_index` when the table has no such column. */
    | MissingColumn(column: string)
    /** `AttributeError` from `getattr` on a field that was never set. */
    | MissingAttribute(attribute: string)
    /** `TypeError` from `np.unique` when a column mixes strings and numbers. */
    | UnorderableValues(plotId: Value, column: string)
    /** `ValueError` for an enumerated column outside its closed set; `allowed`
        is the set the message lists. The message names neither the column
        nor the value; the model keeps them to say which cell failed. */
    | InvalidValue(column: string, value: Value, allowed: seq<string>)
    /** `ValueError` from comparing a column with a Series of another index
        ("Can only compare identically-labeled Series objects"). */
    | UnalignedSeries
    /** `ValueError` raised when a DataFrame or Series is used as a truth
        value. */
    | AmbiguousTruthValue
    /** `TypeError` when no source of subplot descriptors is given. */
    | NotEnoughArguments
    /** `TypeError` when a subplot has neither measurements nor simulations. */
    | NoDataToPlot
    /** `NotImplementedError` for a group whose noise parameters differ. */
    | InconsistentNoise
    /** `NotImplementedError` for a symbolic (string) noise parameter. */
    | NonNumericNoise
}

=== FILE: figure.dfy ===
/** `Figure.__init__`, `Figure._add_subplot` and `SinglePlot.__init__`:
    choosing where the subplot descriptors come from, tagging each subplot
    with its plot type, and refusing a subplot with nothing to draw. */
module Figure {
  import opened Wrappers
  import opened Values
  import opened Errors
  import opened Names
  import opened VisSpec
  import opened SpecTable
  import opened DataProvider

  /** The `vis_spec` argument: a path to a table file or a table. */
  datatype VisSpecArg = Path(path: string) | Frame(table: Table)

  /** The keyword arguments of `Figure.__init__` that describe subplots. */
  datatype Arguments = Arguments(
    visSpec: Option<VisSpecArg>,
    datasetIdsPerPlot: Option<seq<seq<string>>>,
    simCondIdList: Option<seq<seq<string>>>,
    simCondNumList: Option<seq<seq<int>>>,
    observableIdList: Option<seq<seq<string>>>,
    observableNumList: Option<seq<seq<int>>>)

  /** The branch of the `if`/`elif` chain that was taken. */
  datatype Source =
    | FullSpec(arg: VisSpecArg)
    | DatasetIds(lists: seq<seq<string>>)
    | ConditionIds(lists: seq<seq<string>>)
    | ObservableIds(lists: seq<seq<string>>)

  /** Python truth value of an optional list: present and non-empty. */
  predicate NonEmpty<T>(o: Option<seq<T>>) {
    o.Some? && |o.value| > 0
  }

  /** `if vis_spec:` on a path: a non-empty string. A table has no truth
      value at all (`bool(DataFrame)` raises), so it is not asked here. */
  predicate PathGiven(o: Option<VisSpecArg>) {
    o.Some? && o.value.Path? && |o.value.path| > 0
  }

  /** The truth value the chain evidently means for a table: not empty. */
  predicate SpecGiven(o: Option<VisSpecArg>) {
    o.Some? && (if o.value.Path? then |o.value.path| > 0 else |o.value.table.rows| > 0)
  }

  /** The tail of the chain, shared by both readings of `if vis_spec:`:
      dataset ids, then condition ids, then observable ids; the lists of
      numbers are accepted as arguments but never consulted. */
  function FromLists(args: Arguments): (r: Result<Source, Error>)
    ensures r.Failure? <==> !NonEmpty(args.datasetIdsPerPlot) && !NonEmpty(args.simCondIdList) && !NonEmpty(args.observableIdList)
    ensures r.Failure? ==> r.error == NotEnoughArguments
    ensures r.Success? && r.value.DatasetIds? <==> NonEmpty(args.datasetIdsPerPlot)
    ensures r.Success? && r.value.ConditionIds? <==> !NonEmpty(args.datasetIdsPerPlot) && NonEmpty(args.simCondIdList)
    ensures r.Success? && r.value.ObservableIds? <==>
              !NonEmpty(args.datasetIdsPerPlot) && !NonEmpty(args.simCondIdList) && NonEmpty(args.observableIdList)
    ensures r.Success? ==> !r.value.FullSpec?
  {
    if NonEmpty(args.datasetIdsPerPlot) then Success(DatasetIds(args.datasetIdsPerPlot.value))
    else if NonEmpty(args.simCondIdList) then Success(ConditionIds(args.simCondIdList.value))
    else if NonEmpty(args.observableIdList) then Success(ObservableIds(args.observableIdList.value))
    else Failure(NotEnoughArguments)
  }

  /** The chain as written: a table passed as `vis_spec` makes `if vis_spec:`
      raise before any branch is chosen. */
  function SelectSourceAsWritten(args: Arguments): (r: Result<Source, Error>)
    ensures args.visSpec.Some? && args.visSpec.value.Frame? ==> r == Failure(AmbiguousTruthValue)
    ensures PathGiven(args.visSpec) ==> r == Success(FullSpec(args.visSpec.value))
    ensures r.Success? && r.value.FullSpec? ==> PathGiven(args.visSpec)
  {
    match args.visSpec
    case Some(Frame(_)) => Failure(AmbiguousTruthValue)
    case Some(Path(p)) => if |p| > 0 then Success(FullSpec(Path(p))) else FromLists(args)
    case None => FromLists(args)
  }

  /** The chain with a table taken as given when it has rows. */
  function SelectSource(args: Arguments): (r: Result<Source, Error>)
    ensures SpecGiven(args.visSpec) ==> r == Success(FullSpec(args.visSpec.value))
    ensures r.Success? && r.value.FullSpec? <==> SpecGiven(args.visSpec)
    ensures r.Failure? ==> r.error == NotEnoughArguments
  {
    if SpecGiven(args.visSpec) then Success(FullSpec(args.visSpec.value)) else FromLists(args)
  }

  /** The sources are tried in a fixed priority: each is taken exactly when
      every source before it is absent or empty, and nothing at all is a
      `TypeError`. */
  lemma SourcePriority(args: Arguments)
    ensures SelectSource(args).Success? && SelectSource(args).value.DatasetIds? <==>
              !SpecGiven(args.visSpec) && NonEmpty(args.datasetIdsPerPlot)
    ensures SelectSource(args).Success? && SelectSource(args).value.ConditionIds? <==>
              !SpecGiven(args.visSpec) && !NonEmpty(args.datasetIdsPerPlot) && NonEmpty(args.simCondIdList)
    ensures SelectSource(args).Success? && SelectSource(args).value.ObservableIds? <==>
              !SpecGiven(args.visSpec) && !NonEmpty(args.datasetIdsPerPlot) && !NonEmpty(args.simCondIdList)
              && NonEmpty(args.observableIdList)
    ensures SelectSource(args) == Failure(NotEnoughArguments) <==>
              !SpecGiven(args.visSpec) && !NonEmpty(args.datasetIdsPerPlot) && !NonEmpty(args.simCondIdList)
              && !NonEmpty(args.observableIdList)
  {
  }

  /** Lists of condition or observable numbers alone are not enough: the
      result does not depend on them. */
  lemma NumberListsIgnored(args: Arguments, conds: Option<seq<seq<int>>>, obs: Option<seq<seq<int>>>)
    ensures SelectSource(args.(simCondNumList := conds, observableNumList := obs)) == SelectSource(args)
    ensures SelectSourceAsWritten(args.(simCondNumList := conds, observableNumList := obs)) == SelectSourceAsWritten(args)
  {
  }

  /** Without a table argument, both readings of `if vis_spec:` agree. */
  lemma ReadingsAgreeOnPaths(args: Arguments)
    requires args.visSpec.None? || args.visSpec.value.Path?
    ensures SelectSourceAsWritten(args) == SelectSource(args)
  {
  }

  /** A visualization table with rows, the argument the constructor is
      documented to take, is refused as written and accepted as intended. */
  lemma TableArgumentRefused(t: Table, args: Arguments)
    requires |t.rows| > 0 && args.visSpec == Some(Frame(t))
    ensures SelectSourceAsWritten(args) == Failure(AmbiguousTruthValue)
    ensures SelectSource(args) == Success(FullSpec(Frame(t)))
  {
  }

  /** The subplot classes `_add_subplot` chooses between. */
  datatype PlotKind = LinePlot | BarPlot | ScatterPlot

  /** `_add_subplot`'s comparison of `plotTypeSimulation`: bar and scatter by
      name, line for every other value; a column of several values compares
      element-wise and has no truth value. */
  function KindOf(e: Entry): (r: Result<PlotKind, Error>)
    ensures r.Failure? <==> e.Many?
    ensures r.Failure? ==> r.error == AmbiguousTruthValue
    ensures r == Success(BarPlot) <==> e == One(Str(BAR_PLOT))
    ensures r == Success(ScatterPlot) <==> e == One(Str(SCATTER_PLOT))
    ensures r == Success(LinePlot) <==> e.One? && e.v != Str(BAR_PLOT) && e.v != Str(SCATTER_PLOT)
  {
    match e
    case Many(_) => Failure(AmbiguousTruthValue)
    case One(v) =>
      if v == Str(BAR_PLOT) then Success(BarPlot)
      else if v == Str(SCATTER_PLOT) then Success(ScatterPlot)
      else Success(LinePlot)
  }

  /** Every simulation type the table admits gets its own class, and the
      default type `LinePlot` gets the line class. */
  lemma KindsOfAllowedTypes()
    ensures KindOf(Text(LINE_PLOT)) == Success(LinePlot)
    ensures KindOf(Text(BAR_PLOT)) == Success(BarPlot)
    ensures KindOf(Text(SCATTER_PLOT)) == Success(ScatterPlot)
  {
  }

  /** Every spec read from a table with a simulation type column can be
      tagged: that column is collapsed to a single value per plot, so the
      comparison in `_add_subplot` never sees several. */
  lemma TableSpecsHaveKinds(t: Table)
    requires WellFormed(t) && FromDf(t).Success?
    requires PLOT_TYPE_SIMULATION in t.columns
    ensures forall i | 0 <= i < |FromDf(t).value.0| :: KindOf(FromDf(t).value.0[i].plotTypeSimulation).Success?
  {
    var ids, cols := Plots(t), SettingColumns(t);
    var specs := FromDf(t).value.0;
    assert PLOT_TYPE_SIMULATION in cols;
    forall i | 0 <= i < |specs|
      ensures KindOf(specs[i].plotTypeSimulation).Success?
    {
      var group := GroupRows(t.rows, ids[i]);
      assert Resolves(group, PLOT_TYPE_SIMULATION);
      assert PlotSpecOf(ids[i], cols, group, specs[i]);
      SimulationTypeCollapsed(ids[i], cols, group, specs[i]);
    }
  }

  /** A spec built from a plot's rows holds the collapsed single value of
      the simulation type column. */
  lemma SimulationTypeCollapsed(id: Value, cols: seq<string>, group: seq<Row>, spec: Spec)
    requires |group| > 0 && HasColumns(group, cols)
    requires PLOT_TYPE_SIMULATION in cols && Resolves(group, PLOT_TYPE_SIMULATION)
    requires PlotSpecOf(id, cols, group, spec)
    ensures spec.plotTypeSimulation.One?
  {
    assert AttrOf(PLOT_TYPE_SIMULATION) == PlotTypeSimulation;
    assert Attribute(spec, PlotTypeSimulation) == Some(Resolve(id, PLOT_TYPE_SIMULATION, group).value.0);
  }

  /** The cells of a spec that `get_measurements_to_plot`,
      `get_simulations_to_plot` and `matches_plot_spec` compare with the
      data: the dataset id (plotting.py:395-399), the x variable (411), the
      observable (382-388) and the data plot type (448), each a single
      cell. A list of dataset ids is a Series of another index, which
      pandas refuses to compare with the dataset column; a list elsewhere
      is compared element-wise and has no truth value; a missing
      observable is a missing attribute. */
  function SelectionOf(s: Spec): (r: Result<PlotSelection, Error>)
    ensures r.Success? <==> && s.datasetId.Some? && s.datasetId.value.One? && s.xValues.One?
                            && s.yValues.Some? && s.yValues.value.One? && s.plotTypeData.One?
    ensures r.Success? ==> r.value == PlotSelection(s.datasetId.value.v, s.yValues.value.v, s.xValues.v, s.plotTypeData.v)
    ensures s.datasetId.None? ==> r == Failure(MissingAttribute(DATASET_ID))
    ensures s.datasetId.Some? && s.datasetId.value.Many? ==> r == Failure(UnalignedSeries)
    ensures r.Failure? && s.datasetId.Some? && s.datasetId.value.One? ==>
              r.error == (if s.xValues.One? && s.yValues.None? then MissingAttribute(Y_VALUES) else AmbiguousTruthValue)
  {
    match s.datasetId
    case None => Failure(MissingAttribute(DATASET_ID))
    case Some(Many(_)) => Failure(UnalignedSeries)
    case Some(One(d)) =>
      match s.xValues
      case Many(_) => Failure(AmbiguousTruthValue)
      case One(x) =>
        match s.yValues
        case None => Failure(MissingAttribute(Y_VALUES))
        case Some(Many(_)) => Failure(AmbiguousTruthValue)
        case Some(One(y)) =>
          match s.plotTypeData
          case Many(_) => Failure(AmbiguousTruthValue)
          case One(p) => Success(PlotSelection(d, y, x, p))
  }

  /** `from_df` keeps every dataset id of a plot with several rows, so the
      row selection refuses every such plot of a table: only plots of one
      row reach the data. */
  lemma MultiRowPlotsCannotSelect(t: Table, i: nat)
    requires WellFormed(t) && FromDf(t).Success?
    requires DATASET_ID in t.columns
    requires i < |FromDf(t).value.0|
    requires |GroupRows(t.rows, Plots(t)[i])| > 1
    ensures SelectionOf(FromDf(t).value.0[i]) == Failure(UnalignedSeries)
  {
    var ids, cols := Plots(t), SettingColumns(t);
    var spec := FromDf(t).value.0[i];
    var group := GroupRows(t.rows, ids[i]);
    assert DATASET_ID in cols;
    assert ids[i] in ids;
    assert PlotResolves(group, cols);
    assert PlotSpecOf(ids[i], cols, group, spec);
    DatasetIdsListed(ids[i], cols, group, spec);
  }

  /** A spec built from several rows holds all their dataset ids. */
  lemma DatasetIdsListed(id: Value, cols: seq<string>, group: seq<Row>, spec: Spec)
    requires |group| > 1 && HasColumns(group, cols)
    requires DATASET_ID in cols && Resolves(group, DATASET_ID)
    requires PlotSpecOf(id, cols, group, spec)
    ensures spec.datasetId.Some? && spec.datasetId.value.Many?
  {
    assert AttrOf(DATASET_ID) == DatasetId;
    assert Attribute(spec, DatasetId) == Some(Resolve(id, DATASET_ID, group).value.0);
    assert |ColumnOf(group, DATASET_ID)| > 1;
  }

  /** A subplot: its spec, the data it draws, and the placeholder labels the
      constructor sets. */
  datatype SinglePlot = SinglePlot(
    spec: Spec,
    measurements: Option<seq<Point>>,
    simulations: Option<seq<SimPoint>>,
    xValues: Entry,
    title: string,
    xLabel: string,
    yLabel: string)

  /** `SinglePlot.__init__`: a `TypeError` when both data sides are absent;
      the x variable from the spec; an empty title and the column names
      `xLabel`/`yLabel` as axis labels. */
  function NewSinglePlot(spec: Spec, meas: Option<seq<Point>>, sims: Option<seq<SimPoint>>): (r: Result<SinglePlot, Error>)
    ensures r.Failure? <==> meas.None? && sims.None?
    ensures r.Failure? ==> r.error == NoDataToPlot
    ensures r.Success? ==> r.value.spec == spec && r.value.measurements == meas && r.value.simulations == sims
    ensures r.Success? ==> r.value.xValues == spec.xValues
    ensures r.Success? ==> r.value.title == "" && r.value.xLabel == X_LABEL && r.value.yLabel == Y_LABEL
  {
    if meas.None? && sims.None? then Failure(NoDataToPlot)
    else Success(SinglePlot(spec, meas, sims, spec.xValues, "", X_LABEL, Y_LABEL))
  }

  /** What the data provider hands `_add_subplot` for one spec. */
  datatype SubplotData = SubplotData(measurements: Option<seq<Point>>, simulations: Option<seq<SimPoint>>)

  datatype Subplot = Subplot(kind: PlotKind, plot: SinglePlot)

  /** `_add_subplot` for one spec: the type comparison runs before the
      constructor, so its error comes first. */
  function AddSubplot(spec: Spec, data: SubplotData): (r: Result<Subplot, Error>)
    ensures r.Success? <==> KindOf(spec.plotTypeSimulation).Success? && (data.measurements.Some? || data.simulations.Some?)
    ensures r.Failure? && spec.plotTypeSimulation.Many? ==> r.error == AmbiguousTruthValue
    ensures r.Failure? && spec.plotTypeSimulation.One? ==> r.error == NoDataToPlot
    ensures r.Success? ==> r.value.kind == KindOf(spec.plotTypeSimulation).value
    ensures r.Success? ==> r.value.plot.spec == spec && r.value.plot.measurements == data.measurements
                           && r.value.plot.simulations == data.simulations
  {
    var kind :- KindOf(spec.plotTypeSimulation);
    var plot :- NewSinglePlot(spec, data.measurements, data.simulations);
    Success(Subplot(kind, plot))
  }

  /** Subplot `i` of a figure is the one built from spec `i` and its data. */
  predicate SubplotsOf(specs: seq<Spec>, data: seq<SubplotData>, plots: seq<Subplot>)
    requires |data| == |specs|
  {
    && |plots| == |specs|
    && forall i | 0 <= i < |specs| ::
         AddSubplot(specs[i], data[i]).Success? && plots[i] == AddSubplot(specs[i], data[i]).value
  }

  /** The loop over the subplot specs: one subplot per spec, in spec order;
      the first spec that cannot be drawn ends the loop with its error. */
  function AddSubplots(specs: seq<Spec>, data: seq<SubplotData>): (r: Result<seq<Subplot>, Error>)
    requires |data| == |specs|
    ensures r.Success? <==> forall i | 0 <= i < |specs| :: AddSubplot(specs[i], data[i]).Success?
    ensures r.Success? ==> SubplotsOf(specs, data, r.value)
    ensures r.Failure? ==> exists i | 0 <= i < |specs| ::
              && AddSubplot(specs[i], data[i]).Failure?
              && r.error == AddSubplot(specs[i], data[i]).error
              && forall j | 0 <= j < i :: AddSubplot(specs[j], data[j]).Success?
  {
    if |specs| == 0 then Success([])
    else
      var first :- AddSubplot(specs[0], data[0]);
      var rest := AddSubplots(specs[1..], data[1..]);
      if rest.Failure? then
        var k :| 0 <= k < |specs| - 1 && AddSubplot(specs[1..][k], data[1..][k]).Failure?
                 && rest.error == AddSubplot(specs[1..][k], data[1..][k]).error
                 && forall j | 0 <= j < k :: AddSubplot(specs[1..][j], data[1..][j]).Success?;
        FirstFailureShifts(specs, data, k);
        Failure(rest.error)
      else
        Success([first] + rest.value)
  }

  lemma FirstFailureShifts(specs: seq<Spec>, data: seq<SubplotData>, k: nat)
    requires |data| == |specs| && k + 1 < |specs|
    requires AddSubplot(specs[0], data[0]).Success?
    requires forall j | 0 <= j < k :: AddSubplot(specs[1..][j], data[1..][j]).Success?
    ensures forall j | 0 <= j < k + 1 :: AddSubplot(specs[j], data[j]).Success?
  {
    forall j | 0 <= j < k + 1
      ensures AddSubplot(specs[j], data[j]).Success?
    {
      if j > 0 {
        assert specs[j] == specs[1..][j - 1] && data[j] == data[1..][j - 1];
      }
    }
  }

  /** `num_subplots`: a figure that is built has exactly one subplot per
      spec, each tagged by its own spec's simulation type. */
  lemma OneSubplotPerSpec(specs: seq<Spec>, data: seq<SubplotData>)
    requires |data| == |specs|
    requires AddSubplots(specs, data).Success?
    ensures |AddSubplots(specs, data).value| == |specs|
    ensures forall i | 0 <= i < |specs| ::
              AddSubplots(specs, data).value[i].kind == KindOf(specs[i].plotTypeSimulation).value
  {
  }

  /** `DataProvider.select_by_vis_spec` as written: neither side. */
  function SelectByVisSpecStub(spec: Spec): (d: SubplotData)
    ensures d.measurements.None? && d.simulations.None?
  {
    SubplotData(None, None)
  }

  function StubData(specs: seq<Spec>): (ds: seq<SubplotData>)
    ensures |ds| == |specs|
    ensures forall i | 0 <= i < |specs| :: ds[i] == SelectByVisSpecStub(specs[i])
  {
    if |specs| == 0 then [] else [SelectByVisSpecStub(specs[0])] + StubData(specs[1..])
  }

  /** With the data provider's selection still a stub, no figure with a
      subplot can be built: the first spec already fails. */
  lemma StubbedSelectionDrawsNothing(specs: seq<Spec>)
    requires |specs| > 0
    ensures AddSubplots(specs, StubData(specs)).Failure?
    ensures specs[0].plotTypeSimulation.One? ==> AddSubplots(specs, StubData(specs)).error == NoDataToPlot
  {
  }
}

=== FILE: names.dfy ===
/** Column names and closed value sets of the PEtab visualization table. */
module Names {

  const PLOT_ID := "plotId"
  const PLOT_NAME := "plotName"
  const PLOT_TYPE_SIMULATION := "plotTypeSimulation"
  const PLOT_TYPE_DATA := "plotTypeData"
  const X_VALUES := "xValues"
  const X_OFFSET := "xOffset"
  const X_LABEL := "xLabel"
  const X_SCALE := "xScale"
  const Y_VALUES := "yValues"
  const Y_OFFSET := "yOffset"
  const Y_LABEL := "yLabel"
  const Y_SCALE := "yScale"
  const LEGEND_ENTRY := "legendEntry"
  const DATASET_ID := "datasetId"
  /** The attribute a VisualizationSpec stores its figure under. */
  const FIGURE_ID := "figureId"

  const LINE_PLOT := "LinePlot"
  const BAR_PLOT := "BarPlot"
  const SCATTER_PLOT := "ScatterPlot"
  const PLOT_TYPES_SIMULATION: seq<string> := [LINE_PLOT, BAR_PLOT, SCATTER_PLOT]

  const MEAN_AND_SD := "MeanAndSD"
  const MEAN_AND_SEM := "MeanAndSEM"
  const REPLICATE := "replicate"
  const PROVIDED := "provided"
  const PLOT_TYPES_DATA: seq<string> := [MEAN_AND_SD, MEAN_AND_SEM, REPLICATE, PROVIDED]

  const LIN := "lin"
  const LOG := "log"
  const LOG10 := "log10"
  const OBSERVABLE_TRANSFORMATIONS: seq<string> := [LIN, LOG, LOG10]

  const TIME := "time"

  /** Columns whose value must be the same on every row of one plot. */
  const SUBPLOT_LEVEL_COLS: seq<string> :=
    [PLOT_ID, PLOT_NAME, PLOT_TYPE_SIMULATION, PLOT_TYPE_DATA,
     X_VALUES, X_OFFSET, X_LABEL, X_SCALE, Y_LABEL, Y_SCALE]
}

=== FILE: sequences.dfy ===
/** The two orders in which the pipeline enumerates distinct values:
    first appearance (`Index.unique`, `np.unique(..., return_index=True)`
    re-sorted by index) and ascending (`np.unique` on numbers). */
module Sequences {

  predicate Distinct<T(==)>(s: seq<T>) {
    forall i, j | 0 <= i < j < |s| :: s[i] != s[j]
  }

  /** Position of the first occurrence of `x` in `s`. */
  function IndexOf<T(==)>(s: seq<T>, x: T): (i: nat)
    requires x in s
    ensures i < |s| && s[i] == x && x !in s[..i]
  {
    if s[0] == x then 0 else 1 + IndexOf(s[1..], x)
  }

  /** The first occurrence of `x` in `s` is unchanged by appending to `s`. */
  lemma {:induction false} IndexOfPrefix<T>(s: seq<T>, y: T, x: T)
    requires x in s
    ensures x in s + [y] && IndexOf(s + [y], x) == IndexOf(s, x)
  {
    if s[0] != x {
      assert (s + [y])[1..] == s[1..] + [y];
      IndexOfPrefix(s[1..], y, x);
    }
  }

  /** Index of the element appended to `s` when it does not occur in `s`. */
  lemma {:induction false} IndexOfAppended<T>(s: seq<T>, y: T)
    requires y !in s
    ensures IndexOf(s + [y], y) == |s|
  {
  }

  /** The distinct elements of `s`, each once, in order of first appearance. */
  function FirstOccurrences<T(==)>(s: seq<T>): (r: seq<T>)
    ensures Distinct(r)
    ensures forall i | 0 <= i < |r| :: r[i] in s
    ensures forall i | 0 <= i < |s| :: s[i] in r
    ensures forall i, j | 0 <= i < j < |r| :: IndexOf(s, r[i]) < IndexOf(s, r[j])
  {
    if |s| == 0 then []
    else
      var init := s[..|s| - 1];
      var last := s[|s| - 1];
      assert s == init + [last];
      var p := FirstOccurrences(init);
      forall x | x in p
        ensures x in s && IndexOf(s, x) == IndexOf(init, x)
      {
        IndexOfPrefix(init, last, x);
      }
      if last in p then p
      else
        IndexOfAppended(init, last);
        p + [last]
  }

  predicate StrictlyIncreasing(s: seq<real>) {
    forall i, j | 0 <= i < j < |s| :: s[i] < s[j]
  }

  /** Places `x` into an ascending sequence, keeping it ascending and
      without duplicates. */
  function Insert(x: real, r: seq<real>): (q: seq<real>)
    requires StrictlyIncreasing(r)
    ensures StrictlyIncreasing(q)
    ensures forall y :: y in q <==> y == x || y in r
  {
    if |r| == 0 then [x]
    else if x < r[0] then [x] + r
    else if x == r[0] then r
    else
      var tail := Insert(x, r[1..]);
      assert r == [r[0]] + r[1..];
      assert forall k | 0 <= k < |tail| :: r[0] < tail[k] by {
        forall k | 0 <= k < |tail| ensures r[0] < tail[k] {
          assert tail[k] in tail;
        }
      }
      [r[0]] + tail
  }

  /** What `np.unique` returns for a numeric column: its distinct values,
      ascending. */
  function SortedDistinct(s: seq<real>): (r: seq<real>)
    ensures StrictlyIncreasing(r)
    ensures forall y :: y in r <==> y in s
  {
    if |s| == 0 then []
    else
      assert s == [s[0]] + s[1..];
      Insert(s[0], SortedDistinct(s[1..]))
  }

  /** An ascending duplicate-free sequence is determined by its elements:
      sorting distinct values has exactly one answer. */
  lemma {:induction false} StrictlyIncreasingUnique(a: seq<real>, b: seq<real>)
    requires StrictlyIncreasing(a) && StrictlyIncreasing(b)
    requires forall y :: y in a <==> y in b
    ensures a == b
  {
    assert |a| > 0 ==> a[0] in a;
    assert |b| > 0 ==> b[0] in b;
    if |a| > 0 && |b| > 0 {
      assert a[0] in b && b[0] in a;
      assert a[0] == b[0];
      forall y
        ensures y in a[1..] <==> y in b[1..]
      {
        if y in a[1..] {
          assert y in b && y != b[0];
        }
        if y in b[1..] {
          assert y in a && y != a[0];
        }
      }
      StrictlyIncreasingUnique(a[1..], b[1..]);
      assert a == [a[0]] + a[1..] && b == [b[0]] + b[1..];
    }
  }

  /** Sorting does not depend on the order or multiplicity of the input:
      sorting the first occurrences gives the same as sorting everything. */
  lemma SortedDistinctIgnoresOrder(s: seq<real>, t: seq<real>)
    requires forall y :: y in s <==> y in t
    ensures SortedDistinct(s) == SortedDistinct(t)
  {
    StrictlyIncreasingUnique(SortedDistinct(s), SortedDistinct(t));
  }
}

=== FILE: spec_table.dfy ===
/** `VisualizationSpec.from_df`: a visualization table, grouped by plot id,
    becomes one spec per plot. Subplot-level columns collapse to one value
    (with a warning when the rows disagree); enumerated columns are checked
    against their closed sets. */
module SpecTable {
  import opened Wrappers
  import opened Values
  import opened Errors
  import opened Names
  import opened Sequences
  import opened VisSpec

  /** One row of the table: a cell per column. */
  type Row = map<string, Value>

  /** A visualization table: its columns in order, and its rows. */
  datatype Table = Table(columns: seq<string>, rows: seq<Row>)

  /** Every row has a cell in every column. */
  predicate HasColumns(rows: seq<Row>, columns: seq<string>) {
    forall r, c | r in rows && c in columns :: c in r
  }

  /** A data frame: distinct column names and a cell in every column. */
  predicate WellFormed(t: Table) {
    Distinct(t.columns) && HasColumns(t.rows, t.columns)
  }

  /** The warning `from_df` issues for a plot whose rows disagree on a
      subplot-level column: the distinct values and the one kept. */
  datatype Warning = Warning(plotId: Value, column: string, values: set<Value>, chosen: Value)

  /** The plot id of every row, in row order (the index of the frame). */
  function PlotIds(rows: seq<Row>): (ids: seq<Value>)
    requires forall r | r in rows :: PLOT_ID in r
    ensures |ids| == |rows|
    ensures forall i | 0 <= i < |rows| :: ids[i] == rows[i][PLOT_ID]
  {
    if |rows| == 0 then [] else [rows[0][PLOT_ID]] + PlotIds(rows[1..])
  }

  /** The rows of one plot, in row order (`df.loc[plot_id]`). */
  function GroupRows(rows: seq<Row>, id: Value): (g: seq<Row>)
    requires forall r | r in rows :: PLOT_ID in r
    ensures |g| <= |rows|
    ensures forall r | r in g :: r in rows && r[PLOT_ID] == id
    ensures forall r | r in rows && r[PLOT_ID] == id :: r in g
  {
    if |rows| == 0 then []
    else if rows[0][PLOT_ID] == id then [rows[0]] + GroupRows(rows[1..], id)
    else GroupRows(rows[1..], id)
  }

  /** Grouping keeps table order and repetitions: a row added at the end of
      the table is added at the end of its own plot's group, and of no other
      group. Together with the empty table's empty group this fixes every
      group. */
  lemma {:induction false} GroupRowsAppend(rows: seq<Row>, r: Row, id: Value)
    requires forall x | x in rows :: PLOT_ID in x
    requires PLOT_ID in r
    ensures GroupRows([], id) == []
    ensures GroupRows(rows + [r], id) == GroupRows(rows, id) + (if r[PLOT_ID] == id then [r] else [])
  {
    if |rows| > 0 {
      assert (rows + [r])[1..] == rows[1..] + [r];
      GroupRowsAppend(rows[1..], r, id);
    }
  }

  /** The cells of one column, in row order. */
  function ColumnOf(rows: seq<Row>, c: string): (vals: seq<Value>)
    requires forall r | r in rows :: c in r
    ensures |vals| == |rows|
    ensures forall i | 0 <= i < |rows| :: vals[i] == rows[i][c]
  {
    if |rows| == 0 then [] else [rows[0][c]] + ColumnOf(rows[1..], c)
  }

  /** `df.loc[plot_id, col]`: a scalar for a plot with one row, the column's
      cells otherwise. */
  function EntryOf(vals: seq<Value>): Entry {
    if |vals| == 1 then One(vals[0]) else Many(vals)
  }

  predicate SubplotLevel(c: string) {
    c in SUBPLOT_LEVEL_COLS
  }

  /** The closed set of values an enumerated column may hold. */
  function AllowedValues(c: string): Option<seq<string>> {
    if c == Y_SCALE || c == X_SCALE then Some(OBSERVABLE_TRANSFORMATIONS)
    else if c == PLOT_TYPE_DATA then Some(PLOT_TYPES_DATA)
    else if c == PLOT_TYPE_SIMULATION then Some(PLOT_TYPES_SIMULATION)
    else None
  }

  /** `entry in allowed` for a list of strings: numbers are never in it. */
  predicate In(v: Value, allowed: seq<string>) {
    v.Str? && v.s in allowed
  }

  /** The value check of `from_df`, whose `ValueError` for an unknown
      simulation plot type lists the data plot types. It rejects the same
      values as the corrected check, and differs from it only in that
      message. */
  function CheckValueAsWritten(c: string, v: Value): (r: Outcome)
    ensures r.Fail? <==> CheckValue(c, v).Fail?
    ensures c != PLOT_TYPE_SIMULATION ==> r == CheckValue(c, v)
    ensures c == PLOT_TYPE_SIMULATION && r.Fail? ==> r.error == InvalidValue(c, v, PLOT_TYPES_DATA)
  {
    if (c == Y_SCALE || c == X_SCALE) && !In(v, OBSERVABLE_TRANSFORMATIONS) then
      Fail(InvalidValue(c, v, OBSERVABLE_TRANSFORMATIONS))
    else if c == PLOT_TYPE_DATA && !In(v, PLOT_TYPES_DATA) then
      Fail(InvalidValue(c, v, PLOT_TYPES_DATA))
    else if c == PLOT_TYPE_SIMULATION && !In(v, PLOT_TYPES_SIMULATION) then
      Fail(InvalidValue(c, v, PLOT_TYPES_DATA))
    else Pass
  }

  /** The value check with the error listing the set actually checked:
      rejects exactly a value outside its column's closed set, and names
      that set. Columns without a closed set are never rejected. */
  function CheckValue(c: string, v: Value): (r: Outcome)
    ensures r.Fail? <==> AllowedValues(c).Some? && !In(v, AllowedValues(c).value)
    ensures r.Fail? ==> r.error == InvalidValue(c, v, AllowedValues(c).value)
  {
    if (c == Y_SCALE || c == X_SCALE) && !In(v, OBSERVABLE_TRANSFORMATIONS) then
      Fail(InvalidValue(c, v, OBSERVABLE_TRANSFORMATIONS))
    else if c == PLOT_TYPE_DATA && !In(v, PLOT_TYPES_DATA) then
      Fail(InvalidValue(c, v, PLOT_TYPES_DATA))
    else if c == PLOT_TYPE_SIMULATION && !In(v, PLOT_TYPES_SIMULATION) then
      Fail(InvalidValue(c, v, PLOT_TYPES_SIMULATION))
    else Pass
  }

  datatype Outcome = Pass | Fail(error: Error)

  /** The message of the as-written check for an unknown simulation plot
      type offers `MeanAndSD`, a value that the same check then rejects. */
  lemma AsWrittenMessageOffersRejectedValue()
    ensures CheckValueAsWritten(PLOT_TYPE_SIMULATION, Str("weird")).Fail?
    ensures MEAN_AND_SD in CheckValueAsWritten(PLOT_TYPE_SIMULATION, Str("weird")).error.allowed
    ensures CheckValueAsWritten(PLOT_TYPE_SIMULATION, Str(MEAN_AND_SD)).Fail?
  {
  }

  /** Every value the corrected message offers is accepted. */
  lemma MessageOffersOnlyAcceptedValues(c: string, v: Value, s: string)
    requires CheckValue(c, v).Fail?
    requires s in CheckValue(c, v).error.allowed
    ensures CheckValue(c, Str(s)).Pass?
  {
  }

  /** The enumerated columns are subplot-level, so they are only ever
      checked after collapsing. */
  lemma EnumeratedColumnsAreSubplotLevel(c: string)
    requires AllowedValues(c).Some?
    ensures SubplotLevel(c)
  {
  }

  /** `np.unique(entry).size > 1`: more than one distinct cell. */
  lemma {:induction false} ConflictingIffSeveralValues(vals: seq<Value>)
    ensures Conflicting(vals) <==> |set v | v in vals| > 1
  {
    var distinct := set v | v in vals;
    if Conflicting(vals) {
      var i, j :| 0 <= i < |vals| && 0 <= j < |vals| && vals[i] != vals[j];
      assert {vals[i], vals[j]} <= distinct;
      assert |{vals[i], vals[j]}| == 2;
      SubsetCardinality({vals[i], vals[j]}, distinct);
    }
    if |distinct| > 1 {
      var x :| x in distinct;
      assert |distinct - {x}| == |distinct| - 1;
      var y :| y in distinct - {x};
      var i :| 0 <= i < |vals| && vals[i] == x;
      var j :| 0 <= j < |vals| && vals[j] == y;
    }
  }

  lemma SubsetCardinality<T>(a: set<T>, b: set<T>)
    requires a <= b
    ensures |a| <= |b|
  {
    assert b == a + (b - a);
  }

  /** `np.unique(entry)[0]`: the least cell, together with the warning issued
      when the cells disagree. Fails like `np.unique` on cells mixing strings
      and numbers. */
  function Collapse(id: Value, c: string, vals: seq<Value>): (r: Result<(Value, seq<Warning>), Error>)
    requires |vals| > 0
    ensures r.Failure? <==> !Orderable(vals)
    ensures r.Failure? ==> r.error == UnorderableValues(id, c)
    ensures r.Success? ==> r.value.0 in vals && forall v | v in vals :: !ValueLt(v, r.value.0)
    ensures r.Success? ==> |r.value.1| <= 1 && (|r.value.1| == 1 <==> Conflicting(vals))
    ensures r.Success? && |r.value.1| == 1 ==>
              r.value.1[0] == Warning(id, c, (set v | v in vals), r.value.0)
  {
    if !Orderable(vals) then Failure(UnorderableValues(id, c))
    else
      var m := Least(vals);
      Success((m, if Conflicting(vals) then [Warning(id, c, (set v | v in vals), m)] else []))
  }

  /** Whether a column of one plot passes: a subplot-level column must
      collapse, and then hold an allowed value. */
  predicate Resolves(group: seq<Row>, c: string)
    requires |group| > 0 && forall r | r in group :: c in r
  {
    var vals := ColumnOf(group, c);
    !SubplotLevel(c) || (Orderable(vals) && CheckValue(c, Least(vals)).Pass?)
  }

  /** The entry a column of one plot contributes to the plot's settings,
      with any warning; stops at the first column that fails. */
  function Resolve(id: Value, c: string, group: seq<Row>): (r: Result<(Entry, seq<Warning>), Error>)
    requires |group| > 0 && forall r | r in group :: c in r
    ensures r.Success? <==> Resolves(group, c)
    ensures r.Success? && SubplotLevel(c) ==> r.value.0 == One(Least(ColumnOf(group, c)))
    ensures r.Success? && !SubplotLevel(c) ==> r.value.0 == EntryOf(ColumnOf(group, c))
    ensures r.Success? ==> |r.value.1| <= 1
    ensures r.Success? ==> (|r.value.1| == 1 <==> SubplotLevel(c) && Conflicting(ColumnOf(group, c)))
    ensures r.Success? && |r.value.1| == 1 ==>
              r.value.1[0] == Warning(id, c, (set v | v in ColumnOf(group, c)), Least(ColumnOf(group, c)))
    ensures r.Failure? && !Orderable(ColumnOf(group, c)) ==> r.error == UnorderableValues(id, c)
    ensures r.Failure? && Orderable(ColumnOf(group, c)) ==>
              AllowedValues(c).Some? && r.error == InvalidValue(c, Least(ColumnOf(group, c)), AllowedValues(c).value)
  {
    var vals := ColumnOf(group, c);
    if SubplotLevel(c) then
      var (m, ws) :- Collapse(id, c, vals);
      LeastUnique(vals, m);
      match CheckValue(c, m)
      case Fail(e) => Failure(e)
      case Pass => Success((One(m), ws))
    else
      Success((EntryOf(vals), []))
  }

  /** The column of each warning, in order. */
  function WarnedColumns(ws: seq<Warning>): (cs: seq<string>)
    ensures |cs| == |ws|
    ensures forall k | 0 <= k < |ws| :: cs[k] == ws[k].column
  {
    if |ws| == 0 then [] else [ws[0].column] + WarnedColumns(ws[1..])
  }

  lemma WarnedColumnsAppend(a: seq<Warning>, b: seq<Warning>)
    ensures WarnedColumns(a + b) == WarnedColumns(a) + WarnedColumns(b)
  {
  }

  /** The warning `from_df` issues for column `c` of plot `id`. */
  predicate WarnsAbout(w: Warning, id: Value, c: string, group: seq<Row>)
    requires |group| > 0 && forall r | r in group :: c in r
  {
    var vals := ColumnOf(group, c);
    SubplotLevel(c) && Conflicting(vals) && Orderable(vals)
    && w == Warning(id, c, (set v | v in vals), Least(vals))
  }

  /** A subplot-level column whose cells disagree within a plot. */
  predicate Disagrees(group: seq<Row>, c: string) {
    SubplotLevel(c) && (forall r | r in group :: c in r) && Conflicting(ColumnOf(group, c))
  }

  /** `s` holds, for each column and nothing else, the column's resolved
      entry under the attribute the column sets. */
  predicate SettingsOf(id: Value, cols: seq<string>, group: seq<Row>, s: Settings)
    requires |group| > 0 && HasColumns(group, cols)
  {
    && (forall a | a in s :: NameOf(a) in cols)
    && (forall c | c in cols && Resolves(group, c) ::
          AttrOf(c) in s && s[AttrOf(c)] == Resolve(id, c, group).value.0)
  }

  /** `ws` holds exactly one warning per subplot-level column whose cells
      disagree, and nothing else. */
  predicate WarningsOf(id: Value, cols: seq<string>, group: seq<Row>, ws: seq<Warning>)
    requires |group| > 0 && HasColumns(group, cols)
  {
    && (forall w | w in ws :: w.column in cols && WarnsAbout(w, id, w.column, group))
    && (forall c | c in cols && Disagrees(group, c) :: c in WarnedColumns(ws))
    && Distinct(WarnedColumns(ws))
  }

  /** Every column of the plot resolves. */
  predicate PlotResolves(group: seq<Row>, cols: seq<string>)
    requires |group| > 0 && HasColumns(group, cols)
  {
    forall c | c in cols :: Resolves(group, c)
  }

  /** The position of the first column of `cols` that does not resolve for
      the plot, or `|cols|` when every column does. */
  function FirstUnresolved(group: seq<Row>, cols: seq<string>): (k: nat)
    requires |group| > 0 && HasColumns(group, cols)
    ensures k <= |cols|
    ensures forall j | 0 <= j < k :: Resolves(group, cols[j])
    ensures k < |cols| ==> !Resolves(group, cols[k])
    ensures k == |cols| <==> PlotResolves(group, cols)
  {
    if |cols| == 0 then 0
    else if !Resolves(group, cols[0]) then 0
    else 1 + FirstUnresolved(group, cols[1..])
  }

  /** `e` is the error of the first column of the plot that does not
      resolve: the loop over the columns stops there. */
  predicate ColumnsError(id: Value, cols: seq<string>, group: seq<Row>, e: Error)
    requires |group| > 0 && HasColumns(group, cols)
  {
    var k := FirstUnresolved(group, cols);
    k < |cols| && e == Resolve(id, cols[k], group).error
  }

  /** The settings dictionary of one plot: every column, in column order,
      with its resolved entry under the attribute the column sets. Issues
      one warning per subplot-level column whose cells disagree, and fails
      when some column does not resolve. */
  function BuildSettings(id: Value, cols: seq<string>, group: seq<Row>): (r: Result<(Settings, seq<Warning>), Error>)
    requires |group| > 0 && HasColumns(group, cols) && Distinct(cols)
    ensures r.Success? <==> PlotResolves(group, cols)
    ensures r.Success? ==> SettingsOf(id, cols, group, r.value.0)
    ensures r.Success? ==> Keyed(r.value.0)
    ensures r.Success? ==> WarningsOf(id, cols, group, r.value.1)
    ensures r.Failure? ==> ColumnsError(id, cols, group, r.error)
  {
    if |cols| == 0 then Success((map[], []))
    else
      var (e, ws) :- Resolve(id, cols[0], group);
      var (rest, ws') :- BuildSettings(id, cols[1..], group);
      SettingsOfStep(id, cols, group, e, rest);
      KeyedStep(rest, cols[0], e);
      WarningsOfStep(id, cols, group, ws, ws');
      Success((rest[AttrOf(cols[0]) := e], ws + ws'))
  }

  /** Setting a column by its name keeps the dictionary keyed by names. */
  lemma KeyedStep(settings: Settings, c: string, e: Entry)
    requires Keyed(settings)
    ensures Keyed(settings[AttrOf(c) := e])
  {
  }

  lemma SettingsOfStep(id: Value, cols: seq<string>, group: seq<Row>, e: Entry, rest: Settings)
    requires |cols| > 0 && |group| > 0 && HasColumns(group, cols) && Distinct(cols)
    requires Resolve(id, cols[0], group).Success? && Resolve(id, cols[0], group).value.0 == e
    requires SettingsOf(id, cols[1..], group, rest)
    ensures SettingsOf(id, cols, group, rest[AttrOf(cols[0]) := e])
  {
    var s := rest[AttrOf(cols[0]) := e];
    forall c | c in cols && Resolves(group, c)
      ensures AttrOf(c) in s && s[AttrOf(c)] == Resolve(id, c, group).value.0
    {
      if c != cols[0] {
        assert c in cols[1..];
        assert NameOf(AttrOf(c)) != NameOf(AttrOf(cols[0]));
      }
    }
  }

  lemma WarningsOfStep(id: Value, cols: seq<string>, group: seq<Row>, ws: seq<Warning>, ws': seq<Warning>)
    requires |cols| > 0 && |group| > 0 && HasColumns(group, cols) && Distinct(cols)
    requires Resolve(id, cols[0], group).Success? && Resolve(id, cols[0], group).value.1 == ws
    requires WarningsOf(id, cols[1..], group, ws')
    ensures WarningsOf(id, cols, group, ws + ws')
  {
    WarnedColumnsAppend(ws, ws');
    WarningsStepComplete(id, cols, group, ws, ws');
    assert cols[0] !in cols[1..];
    assert forall w | w in ws' :: w.column in cols[1..];
    ColumnsDistinctAppend(cols[0], cols[1..], ws, ws');
    forall w | w in ws + ws'
      ensures w.column in cols && WarnsAbout(w, id, w.column, group)
    {
      if w !in ws {
        assert w in ws';
      }
    }
  }

  lemma WarningsStepComplete(id: Value, cols: seq<string>, group: seq<Row>, ws: seq<Warning>, ws': seq<Warning>)
    requires |cols| > 0 && |group| > 0 && HasColumns(group, cols)
    requires Resolve(id, cols[0], group).Success? && Resolve(id, cols[0], group).value.1 == ws
    requires WarningsOf(id, cols[1..], group, ws')
    requires WarnedColumns(ws + ws') == WarnedColumns(ws) + WarnedColumns(ws')
    ensures forall c | c in cols && Disagrees(group, c) :: c in WarnedColumns(ws + ws')
  {
    forall c | c in cols && Disagrees(group, c)
      ensures c in WarnedColumns(ws + ws')
    {
      if c == cols[0] {
        assert WarnedColumns(ws)[0] == c;
      } else {
        assert c in cols[1..];
      }
    }
  }

  lemma ColumnsDistinctAppend(c: string, rest: seq<string>, ws: seq<Warning>, ws': seq<Warning>)
    requires c !in rest
    requires |ws| <= 1 && forall w | w in ws :: w.column == c
    requires forall w | w in ws' :: w.column in rest
    requires Distinct(WarnedColumns(ws'))
    requires WarnedColumns(ws + ws') == WarnedColumns(ws) + WarnedColumns(ws')
    ensures Distinct(WarnedColumns(ws + ws'))
  {
  }

  lemma DistinctTail<T>(s: seq<T>)
    requires |s| > 0 && Distinct(s)
    ensures Distinct(s[1..]) && s[0] !in s[1..]
    ensures forall x | x in s[1..] :: x in s
  {
  }

  /** The figure a spec built by `from_df` belongs to unless the table says
      otherwise (the constructor's default `fig_id`). */
  const DEFAULT_FIGURE_ID := "fig0"

  /** The columns other than `c`, in order (the frame once `c` is its
      index). */
  function Without(cols: seq<string>, c: string): (r: seq<string>)
    ensures forall x :: x in r <==> x in cols && x != c
    ensures Distinct(cols) ==> Distinct(r)
  {
    if |cols| == 0 then []
    else if cols[0] == c then Without(cols[1..], c)
    else
      assert Distinct(cols) ==> cols[0] !in cols[1..];
      [cols[0]] + Without(cols[1..], c)
  }

  /** A plot id that occurs in the table has rows. */
  lemma GroupNonEmpty(rows: seq<Row>, id: Value)
    requires forall r | r in rows :: PLOT_ID in r
    requires id in PlotIds(rows)
    ensures |GroupRows(rows, id)| > 0
  {
  }

  /** The (plot id, column) each warning is about, in order. */
  function WarningKeys(ws: seq<Warning>): (ks: seq<(Value, string)>)
    ensures |ks| == |ws|
    ensures forall k | 0 <= k < |ws| :: ks[k] == (ws[k].plotId, ws[k].column)
  {
    if |ws| == 0 then [] else [(ws[0].plotId, ws[0].column)] + WarningKeys(ws[1..])
  }

  lemma WarningKeysAppend(a: seq<Warning>, b: seq<Warning>)
    ensures WarningKeys(a + b) == WarningKeys(a) + WarningKeys(b)
  {
  }

  /** The spec of plot `id`: its plot id, and every column's resolved entry
      under the attribute the column sets. */
  predicate PlotSpecOf(id: Value, cols: seq<string>, group: seq<Row>, spec: Spec)
    requires |group| > 0 && HasColumns(group, cols)
  {
    && spec.plotId == One(id)
    && (forall c | c in cols && Resolves(group, c) ::
          Attribute(spec, AttrOf(c)) == Some(Resolve(id, c, group).value.0))
  }

  /** Every row has a plot id and a cell in every column, and each of `ids`
      has rows. */
  predicate Grouped(ids: seq<Value>, cols: seq<string>, rows: seq<Row>) {
    && (forall r | r in rows :: PLOT_ID in r)
    && HasColumns(rows, cols)
    && (forall id | id in ids :: |GroupRows(rows, id)| > 0)
  }

  /** Every plot resolves every column, and the specs can default their
      legend entries (some table has rows only when it has a legend entry or
      dataset id column). */
  predicate Accepted(ids: seq<Value>, cols: seq<string>, rows: seq<Row>)
    requires Grouped(ids, cols, rows)
  {
    && (forall id | id in ids :: PlotResolves(GroupRows(rows, id), cols))
    && (|ids| == 0 || LEGEND_ENTRY in cols || DATASET_ID in cols)
  }

  /** `e` is the error the constructor call for one plot stops with: the
      first failing column, or, once every column resolves, the missing
      legend entry the constructor cannot default. */
  predicate PlotError(id: Value, cols: seq<string>, group: seq<Row>, e: Error)
    requires |group| > 0 && HasColumns(group, cols)
  {
    if PlotResolves(group, cols) then e == MissingAttribute(DATASET_ID)
    else ColumnsError(id, cols, group, e)
  }

  /** One iteration of the loop of `from_df`: the settings of plot `id` and
      the spec the constructor makes of them. */
  function BuildSpec(id: Value, cols: seq<string>, rows: seq<Row>): (r: Result<(Spec, seq<Warning>), Error>)
    requires forall r | r in rows :: PLOT_ID in r
    requires HasColumns(rows, cols) && Distinct(cols) && PLOT_ID !in cols
    requires |GroupRows(rows, id)| > 0
    ensures r.Success? <==> PlotResolves(GroupRows(rows, id), cols) && (LEGEND_ENTRY in cols || DATASET_ID in cols)
    ensures r.Success? ==> PlotSpecOf(id, cols, GroupRows(rows, id), r.value.0)
    ensures r.Success? ==> WarningsOf(id, cols, GroupRows(rows, id), r.value.1)
    ensures r.Failure? ==> PlotError(id, cols, GroupRows(rows, id), r.error)
  {
    var group := GroupRows(rows, id);
    var (settings, ws) :- BuildSettings(id, cols, group);
    MakeSucceedsIff(id, cols, group, settings);
    var spec :- Make(id, settings, DEFAULT_FIGURE_ID);
    MadeSpec(id, cols, group, settings, spec);
    Success((spec, ws))
  }

  /** The position of the first plot of `ids` with a column that does not
      resolve, or `|ids|` when there is none. */
  function FirstRejected(ids: seq<Value>, cols: seq<string>, rows: seq<Row>): (k: nat)
    requires Grouped(ids, cols, rows)
    ensures k <= |ids|
    ensures forall j | 0 <= j < k :: PlotResolves(GroupRows(rows, ids[j]), cols)
    ensures k < |ids| ==> !PlotResolves(GroupRows(rows, ids[k]), cols)
  {
    if |ids| == 0 then 0
    else if !PlotResolves(GroupRows(rows, ids[0]), cols) then 0
    else
      GroupedTail(ids, cols, rows);
      1 + FirstRejected(ids[1..], cols, rows)
  }

  lemma GroupedTail(ids: seq<Value>, cols: seq<string>, rows: seq<Row>)
    requires |ids| > 0 && Grouped(ids, cols, rows)
    ensures Grouped(ids[1..], cols, rows)
  {
    assert forall id | id in ids[1..] :: id in ids;
  }

  /** `e` is the error the loop of `from_df` stops with. Without a legend
      entry or dataset id column the first plot already fails; otherwise the
      first plot with a failing column fails at that column. */
  predicate SpecsError(ids: seq<Value>, cols: seq<string>, rows: seq<Row>, e: Error)
    requires Grouped(ids, cols, rows)
  {
    if LEGEND_ENTRY in cols || DATASET_ID in cols then
      var k := FirstRejected(ids, cols, rows);
      k < |ids| && ColumnsError(ids[k], cols, GroupRows(rows, ids[k]), e)
    else
      |ids| > 0 && PlotError(ids[0], cols, GroupRows(rows, ids[0]), e)
  }

  /** One spec per plot id, in the order of `ids`. */
  predicate SpecsOf(ids: seq<Value>, cols: seq<string>, rows: seq<Row>, specs: seq<Spec>)
    requires Grouped(ids, cols, rows)
  {
    && |specs| == |ids|
    && forall i | 0 <= i < |ids| :: PlotSpecOf(ids[i], cols, GroupRows(rows, ids[i]), specs[i])
  }

  /** Exactly one warning per plot and subplot-level column whose cells
      disagree. */
  predicate AllWarningsOf(ids: seq<Value>, cols: seq<string>, rows: seq<Row>, ws: seq<Warning>)
    requires Grouped(ids, cols, rows)
  {
    && (forall w | w in ws ::
          w.plotId in ids && w.column in cols && WarnsAbout(w, w.plotId, w.column, GroupRows(rows, w.plotId)))
    && (forall id, c | id in ids && c in cols && Disagrees(GroupRows(rows, id), c) ::
          (id, c) in WarningKeys(ws))
    && Distinct(WarningKeys(ws))
  }

  /** The loop of `from_df` over the plot ids. */
  function BuildSpecs(ids: seq<Value>, cols: seq<string>, rows: seq<Row>): (r: Result<(seq<Spec>, seq<Warning>), Error>)
    requires Grouped(ids, cols, rows) && Distinct(cols) && PLOT_ID !in cols && Distinct(ids)
    ensures r.Success? <==> Accepted(ids, cols, rows)
    ensures r.Failure? && (forall id | id in ids :: PlotResolves(GroupRows(rows, id), cols)) ==>
              r.error == MissingAttribute(DATASET_ID)
    ensures r.Failure? ==> SpecsError(ids, cols, rows, r.error)
    ensures r.Success? ==> SpecsOf(ids, cols, rows, r.value.0)
    ensures r.Success? ==> AllWarningsOf(ids, cols, rows, r.value.1)
  {
    if |ids| == 0 then Success(([], []))
    else
      assert ids[0] in ids;
      GroupedTail(ids, cols, rows);
      DistinctTail(ids);
      match BuildSpec(ids[0], cols, rows)
      case Failure(e) =>
        SpecsErrorHere(ids, cols, rows, e);
        Failure(e)
      case Success((spec, ws)) =>
        match BuildSpecs(ids[1..], cols, rows)
        case Failure(e) =>
          SpecsErrorLater(ids, cols, rows, e);
          Failure(e)
        case Success((specs, ws')) =>
          SpecsStep(ids, cols, rows, spec, specs);
          AllWarningsStep(ids, cols, rows, ws, ws');
          Success(([spec] + specs, ws + ws'))
  }

  /** The first plot stops the loop with its own error. */
  lemma SpecsErrorHere(ids: seq<Value>, cols: seq<string>, rows: seq<Row>, e: Error)
    requires |ids| > 0 && Grouped(ids, cols, rows)
    requires !(PlotResolves(GroupRows(rows, ids[0]), cols) && (LEGEND_ENTRY in cols || DATASET_ID in cols))
    requires PlotError(ids[0], cols, GroupRows(rows, ids[0]), e)
    ensures SpecsError(ids, cols, rows, e)
  {
  }

  /** A first plot that is built passes the loop's error on from the rest. */
  lemma SpecsErrorLater(ids: seq<Value>, cols: seq<string>, rows: seq<Row>, e: Error)
    requires |ids| > 0 && Grouped(ids, cols, rows) && Grouped(ids[1..], cols, rows)
    requires PlotResolves(GroupRows(rows, ids[0]), cols) && (LEGEND_ENTRY in cols || DATASET_ID in cols)
    requires SpecsError(ids[1..], cols, rows, e)
    ensures SpecsError(ids, cols, rows, e)
  {
  }

  /** The settings of a plot carry a legend entry or dataset id exactly when
      the table has such a column, and never a plot id. */
  lemma MakeSucceedsIff(id: Value, cols: seq<string>, group: seq<Row>, settings: Settings)
    requires |group| > 0 && HasColumns(group, cols) && PLOT_ID !in cols
    requires PlotResolves(group, cols)
    requires SettingsOf(id, cols, group, settings)
    ensures (LegendEntry in settings || DatasetId in settings) <==> (LEGEND_ENTRY in cols || DATASET_ID in cols)
    ensures PlotId !in settings
  {
    assert AttrOf(LEGEND_ENTRY) == LegendEntry && AttrOf(DATASET_ID) == DatasetId;
    assert NameOf(LegendEntry) == LEGEND_ENTRY && NameOf(DatasetId) == DATASET_ID && NameOf(PlotId) == PLOT_ID;
  }

  lemma MadeSpec(id: Value, cols: seq<string>, group: seq<Row>, settings: Settings, spec: Spec)
    requires |group| > 0 && HasColumns(group, cols) && PLOT_ID !in cols
    requires SettingsOf(id, cols, group, settings) && Keyed(settings)
    requires Make(id, settings, DEFAULT_FIGURE_ID) == Success(spec)
    ensures PlotSpecOf(id, cols, group, spec)
  {
    assert NameOf(PlotId) == PLOT_ID;
  }

  lemma SpecsStep(ids: seq<Value>, cols: seq<string>, rows: seq<Row>, spec: Spec, specs: seq<Spec>)
    requires |ids| > 0
    requires Grouped(ids, cols, rows)
    requires PlotSpecOf(ids[0], cols, GroupRows(rows, ids[0]), spec)
    requires SpecsOf(ids[1..], cols, rows, specs)
    ensures SpecsOf(ids, cols, rows, [spec] + specs)
  {
  }

  lemma AllWarningsStep(ids: seq<Value>, cols: seq<string>, rows: seq<Row>, ws: seq<Warning>, ws': seq<Warning>)
    requires |ids| > 0 && Distinct(ids)
    requires Grouped(ids, cols, rows)
    requires WarningsOf(ids[0], cols, GroupRows(rows, ids[0]), ws)
    requires AllWarningsOf(ids[1..], cols, rows, ws')
    ensures AllWarningsOf(ids, cols, rows, ws + ws')
  {
    WarningKeysAppend(ws, ws');
    assert forall w | w in ws :: w.plotId == ids[0];
    assert forall w | w in ws' :: w.plotId in ids[1..];
    AllWarningsStepComplete(ids, cols, rows, ws, ws');
    KeysDistinctAppend(ids[0], ids[1..], ws, ws');
    forall w | w in ws + ws'
      ensures w.plotId in ids && w.column in cols && WarnsAbout(w, w.plotId, w.column, GroupRows(rows, w.plotId))
    {
      if w !in ws {
        assert w in ws';
      }
    }
  }

  lemma AllWarningsStepComplete(ids: seq<Value>, cols: seq<string>, rows: seq<Row>, ws: seq<Warning>, ws': seq<Warning>)
    requires |ids| > 0
    requires forall r | r in rows :: PLOT_ID in r
    requires forall c | c in cols && Disagrees(GroupRows(rows, ids[0]), c) :: c in WarnedColumns(ws)
    requires forall w | w in ws :: w.plotId == ids[0]
    requires forall id, c | id in ids[1..] && c in cols && Disagrees(GroupRows(rows, id), c) ::
               (id, c) in WarningKeys(ws')
    requires WarningKeys(ws + ws') == WarningKeys(ws) + WarningKeys(ws')
    ensures forall id, c | id in ids && c in cols && Disagrees(GroupRows(rows, id), c) ::
              (id, c) in WarningKeys(ws + ws')
  {
  }

  lemma KeysDistinctAppend(x: Value, rest: seq<Value>, ws: seq<Warning>, ws': seq<Warning>)
    requires x !in rest
    requires forall w | w in ws :: w.plotId == x
    requires Distinct(WarnedColumns(ws))
    requires forall w | w in ws' :: w.plotId in rest
    requires Distinct(WarningKeys(ws'))
    requires WarningKeys(ws + ws') == WarningKeys(ws) + WarningKeys(ws')
    ensures Distinct(WarningKeys(ws + ws'))
  {
  }

  /** The plot ids of a table, each once, in order of first appearance
      (`index.unique()`). */
  function Plots(t: Table): (ids: seq<Value>)
    requires WellFormed(t) && PLOT_ID in t.columns
    ensures Distinct(ids)
    ensures forall id | id in ids :: |GroupRows(t.rows, id)| > 0
    ensures forall i | 0 <= i < |t.rows| :: t.rows[i][PLOT_ID] in ids
    ensures forall i | 0 <= i < |ids| :: ids[i] in PlotIds(t.rows)
    ensures forall i, j | 0 <= i < j < |ids| ::
              IndexOf(PlotIds(t.rows), ids[i]) < IndexOf(PlotIds(t.rows), ids[j])
  {
    var ids := FirstOccurrences(PlotIds(t.rows));
    forall id | id in ids
      ensures |GroupRows(t.rows, id)| > 0
    {
      GroupNonEmpty(t.rows, id);
    }
    ids
  }

  /** The columns that become settings: all but the plot id, which is the
      index of the frame. */
  function SettingColumns(t: Table): (cols: seq<string>)
    requires WellFormed(t)
    ensures Distinct(cols) && PLOT_ID !in cols
    ensures forall c :: c in cols <==> c in t.columns && c != PLOT_ID
  {
    Without(t.columns, PLOT_ID)
  }

  /** `VisualizationSpec.from_df` on a data frame: one spec per plot id, in
      order of first appearance, each holding every other column resolved
      for that plot; one warning per plot and subplot-level column whose
      cells disagree. Fails when the frame has no plot id column, when a
      subplot-level column mixes strings and numbers, when an enumerated
      column holds a value outside its closed set, and when a spec has
      neither a legend entry nor a dataset id. */
  function FromDf(t: Table): (r: Result<(seq<Spec>, seq<Warning>), Error>)
    requires WellFormed(t)
    ensures PLOT_ID !in t.columns ==> r == Failure(MissingColumn(PLOT_ID))
    ensures r.Success? <==> PLOT_ID in t.columns && Accepted(Plots(t), SettingColumns(t), t.rows)
    ensures r.Success? ==> SpecsOf(Plots(t), SettingColumns(t), t.rows, r.value.0)
    ensures r.Success? ==> AllWarningsOf(Plots(t), SettingColumns(t), t.rows, r.value.1)
    ensures r.Failure? && PLOT_ID in t.columns ==> SpecsError(Plots(t), SettingColumns(t), t.rows, r.error)
  {
    if PLOT_ID !in t.columns then Failure(MissingColumn(PLOT_ID))
    else BuildSpecs(Plots(t), SettingColumns(t), t.rows)
  }

  lemma GroupOfAbsentId(rows: seq<Row>, id: Value)
    requires forall r | r in rows :: PLOT_ID in r
    requires forall k | 0 <= k < |rows| :: rows[k][PLOT_ID] != id
    ensures GroupRows(rows, id) == []
  {
  }

  /** A plot id carried by one row only has a one-row group. */
  lemma {:induction false} GroupOfUniqueId(rows: seq<Row>, id: Value)
    requires forall r | r in rows :: PLOT_ID in r
    requires forall i, j | 0 <= i < j < |rows| :: rows[i][PLOT_ID] != rows[j][PLOT_ID]
    ensures |GroupRows(rows, id)| <= 1
  {
    if |rows| > 0 {
      var rest := GroupRows(rows[1..], id);
      if rows[0][PLOT_ID] == id {
        assert forall k | 0 <= k < |rows[1..]| :: rows[1..][k][PLOT_ID] != id by {
          forall k | 0 <= k < |rows[1..]| ensures rows[1..][k][PLOT_ID] != id {
            assert rows[1..][k] == rows[k + 1];
          }
        }
        GroupOfAbsentId(rows[1..], id);
      }
      GroupOfUniqueId(rows[1..], id);
    }
  }

  /** A column of one cell cannot disagree with itself. */
  lemma OneCellAgrees(vals: seq<Value>)
    requires |vals| <= 1
    ensures !Conflicting(vals)
  {
  }

  /** A table whose plot ids are all different yields no warnings: one row
      cannot disagree with itself. */
  lemma SingleRowPlotsNeverWarn(t: Table)
    requires WellFormed(t) && FromDf(t).Success?
    requires forall i, j | 0 <= i < j < |t.rows| :: t.rows[i][PLOT_ID] != t.rows[j][PLOT_ID]
    ensures FromDf(t).value.1 == []
  {
    var ws := FromDf(t).value.1;
    if |ws| > 0 {
      var w := ws[0];
      assert w in ws;
      var group := GroupRows(t.rows, w.plotId);
      assert WarnsAbout(w, w.plotId, w.column, group);
      GroupOfUniqueId(t.rows, w.plotId);
      OneCellAgrees(ColumnOf(group, w.column));
      assert false;
    }
  }
}

=== FILE: statistics.dfy ===
/** The replicate statistics of one x value: `np.mean`, `np.std` (the
    population standard deviation, `ddof=0`) and the standard error
    `np.std(x) / np.sqrt(len(x))`. Square roots stay symbolic. */
module Statistics {
  import opened Wrappers

  function Sum(xs: seq<real>): real {
    if |xs| == 0 then 0.0 else xs[0] + Sum(xs[1..])
  }

  function SumOfSquares(xs: seq<real>): real {
    if |xs| == 0 then 0.0 else xs[0] * xs[0] + SumOfSquares(xs[1..])
  }

  /** Sum of squared deviations from `c`. */
  function Deviation(xs: seq<real>, c: real): real {
    if |xs| == 0 then 0.0 else (xs[0] - c) * (xs[0] - c) + Deviation(xs[1..], c)
  }

  /** `np.mean`: the value whose `|xs|` copies add up to the sum. */
  function Mean(xs: seq<real>): (m: real)
    requires |xs| > 0
    ensures m * (|xs| as real) == Sum(xs)
  {
    Sum(xs) / (|xs| as real)
  }

  /** `np.var` with `ddof=0`: mean squared deviation from the mean. */
  function Variance(xs: seq<real>): (v: real)
    requires |xs| > 0
    ensures v >= 0.0
    ensures v * (|xs| as real) == Deviation(xs, Mean(xs))
  {
    DeviationNonNegative(xs, Mean(xs));
    Deviation(xs, Mean(xs)) / (|xs| as real)
  }

  lemma {:induction false} DeviationNonNegative(xs: seq<real>, c: real)
    ensures Deviation(xs, c) >= 0.0
  {
    if |xs| > 0 {
      DeviationNonNegative(xs[1..], c);
      var d := xs[0] - c;
      assert d * d >= 0.0 by {
        if d < 0.0 {
          assert d * d == (-d) * (-d);
        }
      }
    }
  }

  /** The non-negative square root of `square`, kept symbolic. */
  datatype Root = Sqrt(square: real)

  /** Expanding the square: the deviation from any `c` is the sum of squares,
      less twice `c` times the sum, plus `|xs|` copies of `c` squared. */
  lemma {:induction false} DeviationExpanded(xs: seq<real>, c: real)
    ensures Deviation(xs, c) == SumOfSquares(xs) - 2.0 * c * Sum(xs) + (|xs| as real) * c * c
  {
    if |xs| > 0 {
      DeviationExpanded(xs[1..], c);
      assert (|xs| as real) == (|xs[1..]| as real) + 1.0;
    }
  }

  /** The shortcut formula: `|xs|` times the variance is the sum of squares
      less the mean times the sum. */
  lemma {:induction false} VarianceShortcut(xs: seq<real>)
    requires |xs| > 0
    ensures Deviation(xs, Mean(xs)) == SumOfSquares(xs) - Mean(xs) * Sum(xs)
  {
    DeviationExpanded(xs, Mean(xs));
    ShortcutAlgebra(SumOfSquares(xs), Sum(xs), |xs| as real, Mean(xs), Deviation(xs, Mean(xs)));
  }

  lemma ShortcutAlgebra(q: real, s: real, n: real, m: real, d: real)
    requires m * n == s
    requires d == q - 2.0 * m * s + n * m * m
    ensures d == q - m * s
  {
  }

  /** The mean lies between the least and the greatest replicate. */
  lemma {:induction false} MeanBetween(xs: seq<real>, lo: real, hi: real)
    requires |xs| > 0
    requires forall i | 0 <= i < |xs| :: lo <= xs[i] <= hi
    ensures lo <= Mean(xs) <= hi
  {
    SumBetween(xs, lo, hi);
  }

  lemma {:induction false} SumBetween(xs: seq<real>, lo: real, hi: real)
    requires forall i | 0 <= i < |xs| :: lo <= xs[i] <= hi
    ensures (|xs| as real) * lo <= Sum(xs) <= (|xs| as real) * hi
  {
    if |xs| > 0 {
      SumBetween(xs[1..], lo, hi);
    }
  }

  /** Identical replicates have that value as mean and no spread. */
  lemma {:induction false} ConstantReplicates(xs: seq<real>, x: real)
    requires |xs| > 0
    requires forall i | 0 <= i < |xs| :: xs[i] == x
    ensures Mean(xs) == x
    ensures Variance(xs) == 0.0
  {
    MeanBetween(xs, x, x);
    ZeroDeviation(xs, x);
  }

  lemma {:induction false} ZeroDeviation(xs: seq<real>, x: real)
    requires forall i | 0 <= i < |xs| :: xs[i] == x
    ensures Deviation(xs, x) == 0.0
  {
    if |xs| > 0 {
      ZeroDeviation(xs[1..], x);
    }
  }

  /** The statistics of one group of replicates, as `get_measurements_to_plot`
      stores them; an empty group has none (NumPy yields NaN). */
  datatype Replicates = Replicates(
    mean: Option<real>,
    noiseModel: Option<real>,
    sd: Option<Root>,
    sem: Option<Root>,
    repl: seq<real>)

  /** Mean, standard deviation, standard error and the replicates in row
      order. The standard error `sd / sqrt(n)` is the root of `variance / n`. */
  function Summarize(xs: seq<real>, noise: Option<real>): (r: Replicates)
    ensures r.repl == xs && r.noiseModel == noise
    ensures r.mean.Some? <==> |xs| > 0
    ensures r.sd.Some? <==> |xs| > 0
    ensures r.sem.Some? <==> |xs| > 0
    ensures |xs| > 0 ==> r.mean.value * (|xs| as real) == Sum(xs)
    ensures |xs| > 0 ==> r.sd.value.square >= 0.0
    ensures |xs| > 0 ==> r.sd.value.square * (|xs| as real) == Deviation(xs, r.mean.value)
    ensures |xs| > 0 ==> r.sem.value.square * (|xs| as real) == r.sd.value.square
  {
    if |xs| == 0 then Replicates(None, noise, None, None, xs)
    else
      var v := Variance(xs);
      Replicates(Some(Mean(xs)), noise, Some(Sqrt(v)), Some(Sqrt(v / (|xs| as real))), xs)
  }

  /** Replicates 1, 2, 3: mean 2, variance 2/3, squared standard error 2/9. */
  lemma SummarizeExample()
    ensures Summarize([1.0, 2.0, 3.0], None).mean == Some(2.0)
    ensures Summarize([1.0, 2.0, 3.0], None).sd == Some(Sqrt(2.0 / 3.0))
    ensures Summarize([1.0, 2.0, 3.0], None).sem == Some(Sqrt(2.0 / 9.0))
  {
  }
}

=== FILE: values.dfy ===
/** Cells of the tables and the order `np.unique` sorts them by. */
module Values {

  /** One cell of a table: a string or a (finite) number. */
  datatype Value = Str(s: string) | Num(x: real)

  /** A setting of a visualization spec: one value, or the list of values a
      multi-row group carries in a row-level column. */
  datatype Entry = One(v: Value) | Many(vs: seq<Value>)

  /** Python's `<` on `str`: code point by code point, a proper prefix first. */
  predicate StrLt(a: string, b: string)
    decreases |a|
  {
    if |a| == 0 then |b| > 0
    else if |b| == 0 then false
    else if a[0] != b[0] then a[0] < b[0]
    else StrLt(a[1..], b[1..])
  }

  lemma {:induction false} StrLtIrreflexive(a: string)
    ensures !StrLt(a, a)
    decreases |a|
  {
    if |a| > 0 {
      StrLtIrreflexive(a[1..]);
    }
  }

  lemma {:induction false} StrLtTransitive(a: string, b: string, c: string)
    requires StrLt(a, b) && StrLt(b, c)
    ensures StrLt(a, c)
    decreases |a|
  {
    if |a| > 0 && a[0] == b[0] && b[0] == c[0] {
      StrLtTransitive(a[1..], b[1..], c[1..]);
    }
  }

  lemma {:induction false} StrLtTrichotomous(a: string, b: string)
    ensures a == b || StrLt(a, b) || StrLt(b, a)
    decreases |a|
  {
    if |a| > 0 && |b| > 0 && a[0] == b[0] {
      StrLtTrichotomous(a[1..], b[1..]);
      if a[1..] == b[1..] {
        assert a == [a[0]] + a[1..] && b == [b[0]] + b[1..];
      }
    }
  }

  /** Two cells numpy can compare: both strings or both numbers. */
  predicate SameKind(a: Value, b: Value) {
    a.Str? == b.Str?
  }

  /** The order `np.unique` sorts by; cells of different kinds are unordered. */
  predicate ValueLt(a: Value, b: Value) {
    match (a, b)
    case (Str(x), Str(y)) => StrLt(x, y)
    case (Num(x), Num(y)) => x < y
    case _ => false
  }

  lemma ValueLtTransitive(a: Value, b: Value, c: Value)
    requires ValueLt(a, b) && ValueLt(b, c)
    ensures ValueLt(a, c)
  {
    if a.Str? {
      StrLtTransitive(a.s, b.s, c.s);
    }
  }

  lemma ValueLtTrichotomous(a: Value, b: Value)
    requires SameKind(a, b)
    ensures a == b || ValueLt(a, b) || ValueLt(b, a)
  {
    if a.Str? {
      StrLtTrichotomous(a.s, b.s);
    }
  }

  lemma ValueLtIrreflexive(a: Value)
    ensures !ValueLt(a, a)
  {
    if a.Str? {
      StrLtIrreflexive(a.s);
    }
  }

  /** All cells pairwise comparable, so that sorting them cannot fail. */
  predicate Orderable(vs: seq<Value>) {
    forall i, j | 0 <= i < |vs| && 0 <= j < |vs| :: SameKind(vs[i], vs[j])
  }

  /** True when some two cells differ, i.e. `np.unique` returns more than one. */
  predicate Conflicting(vs: seq<Value>) {
    exists i, j | 0 <= i < |vs| && 0 <= j < |vs| :: vs[i] != vs[j]
  }

  /** The first element of the sorted distinct cells: the least cell. */
  function Least(vs: seq<Value>): (m: Value)
    requires |vs| > 0 && Orderable(vs)
    ensures m in vs
    ensures forall v | v in vs :: !ValueLt(v, m)
  {
    if |vs| == 1 then
      ValueLtIrreflexive(vs[0]);
      vs[0]
    else
      var rest := Least(vs[1..]);
      if ValueLt(vs[0], rest) then
        LowerBoundMoves(vs[1..], vs[0], rest);
        ValueLtIrreflexive(vs[0]);
        assert vs == [vs[0]] + vs[1..];
        vs[0]
      else
        assert vs == [vs[0]] + vs[1..];
        rest
  }

  /** A cell below a lower bound of `vs` is itself a lower bound of `vs`. */
  lemma LowerBoundMoves(vs: seq<Value>, lo: Value, m: Value)
    requires ValueLt(lo, m)
    requires forall v | v in vs :: !ValueLt(v, m)
    ensures forall v | v in vs :: !ValueLt(v, lo)
  {
    forall v | v in vs
      ensures !ValueLt(v, lo)
    {
      if ValueLt(v, lo) {
        ValueLtTransitive(v, lo, m);
      }
    }
  }

  /** The least cell is the only cell below which nothing in `vs` lies, so
      "first of the sorted distinct values" is well defined. */
  lemma {:induction false} LeastUnique(vs: seq<Value>, m: Value)
    requires |vs| > 0 && Orderable(vs)
    requires m in vs && forall v | v in vs :: !ValueLt(v, m)
    ensures m == Least(vs)
  {
    var l := Least(vs);
    var i :| 0 <= i < |vs| && vs[i] == m;
    var j :| 0 <= j < |vs| && vs[j] == l;
    assert SameKind(vs[i], vs[j]);
    ValueLtTrichotomous(m, l);
  }
}

=== FILE: vis_spec.dfy ===
/** `VisualizationSpec.__init__`: one subplot's settings, with the absent
    ones filled in. The attributes the constructor sets dynamically become a
    record with one field per known attribute; attributes the record does not
    name (other columns of the table) are kept in `others`. */
module VisSpec {
  import opened Wrappers
  import opened Values
  import opened Errors
  import opened Names

  /** The name of an attribute of a VisualizationSpec. */
  datatype Attr =
    | FigureId | PlotId | PlotName | PlotTypeSimulation | PlotTypeData
    | XValues | XOffset | XLabel | XScale | YLabel | YOffset | LegendEntry
    | YValues | YScale | DatasetId
    | Column(name: string)

  /** The column or attribute name an `Attr` stands for. */
  function NameOf(a: Attr): string {
    match a
    case FigureId => FIGURE_ID
    case PlotId => PLOT_ID
    case PlotName => PLOT_NAME
    case PlotTypeSimulation => PLOT_TYPE_SIMULATION
    case PlotTypeData => PLOT_TYPE_DATA
    case XValues => X_VALUES
    case XOffset => X_OFFSET
    case XLabel => X_LABEL
    case XScale => X_SCALE
    case YLabel => Y_LABEL
    case YOffset => Y_OFFSET
    case LegendEntry => LEGEND_ENTRY
    case YValues => Y_VALUES
    case YScale => Y_SCALE
    case DatasetId => DATASET_ID
    case Column(name) => name
  }

  /** The attribute a column of the table sets (`setattr(self, col, ...)`). */
  /** The names of the attributes the record has a field for. */
  const KNOWN_NAMES: set<string> := {
    FIGURE_ID, PLOT_ID, PLOT_NAME, PLOT_TYPE_SIMULATION, PLOT_TYPE_DATA,
    X_VALUES, X_OFFSET, X_LABEL, X_SCALE, Y_LABEL, Y_OFFSET, LEGEND_ENTRY,
    Y_VALUES, Y_SCALE, DATASET_ID}

  function AttrOf(name: string): (a: Attr)
    ensures NameOf(a) == name
    ensures a.Column? <==> name !in KNOWN_NAMES
    ensures a.Column? ==> forall b: Attr | !b.Column? :: NameOf(b) != name
  {
    if name == FIGURE_ID then FigureId
    else if name == PLOT_ID then PlotId
    else if name == PLOT_NAME then PlotName
    else if name == PLOT_TYPE_SIMULATION then PlotTypeSimulation
    else if name == PLOT_TYPE_DATA then PlotTypeData
    else if name == X_VALUES then XValues
    else if name == X_OFFSET then XOffset
    else if name == X_LABEL then XLabel
    else if name == X_SCALE then XScale
    else if name == Y_LABEL then YLabel
    else if name == Y_OFFSET then YOffset
    else if name == LEGEND_ENTRY then LegendEntry
    else if name == Y_VALUES then YValues
    else if name == Y_SCALE then YScale
    else if name == DATASET_ID then DatasetId
    else Column(name)
  }

  /** An attribute whose name is not taken by a known attribute. */
  ghost predicate Canonical(a: Attr) {
    a.Column? ==> forall b: Attr | !b.Column? :: NameOf(b) != a.name
  }

  /** Naming an attribute and reading the name back gives the attribute. */
  lemma AttrOfNameOf(a: Attr)
    requires Canonical(a)
    ensures AttrOf(NameOf(a)) == a
  {
  }

  /** The settings handed to the constructor (`plot_settings`). */
  type Settings = map<Attr, Entry>

  /** Every key is the attribute that `setattr` with its name sets. The
      constructor's dictionary is keyed by names, so a name of a known
      attribute always stands for that attribute, never for a `Column`. */
  predicate Keyed(settings: Settings) {
    forall name | Column(name) in settings :: name !in KNOWN_NAMES
  }

  /** A constructed VisualizationSpec. The defaulted attributes are always
      present; y values, y scale and dataset ids only when given. */
  datatype Spec = Spec(
    figureId: Entry,
    plotId: Entry,
    plotName: Entry,
    plotTypeSimulation: Entry,
    plotTypeData: Entry,
    xValues: Entry,
    xOffset: Entry,
    xLabel: Entry,
    xScale: Entry,
    yLabel: Entry,
    yOffset: Entry,
    legendEntry: Entry,
    yValues: Option<Entry>,
    yScale: Option<Entry>,
    datasetId: Option<Entry>,
    others: Settings)

  function Text(s: string): Entry {
    One(Str(s))
  }

  function Lookup(settings: Settings, a: Attr): Option<Entry> {
    if a in settings then Some(settings[a]) else None
  }

  function OrElse(o: Option<Entry>, default: Entry): Entry {
    if o.Some? then o.value else default
  }

  /** `getattr(spec, a)`, or None for an attribute that was never set. */
  function Attribute(spec: Spec, a: Attr): Option<Entry> {
    match a
    case FigureId => Some(spec.figureId)
    case PlotId => Some(spec.plotId)
    case PlotName => Some(spec.plotName)
    case PlotTypeSimulation => Some(spec.plotTypeSimulation)
    case PlotTypeData => Some(spec.plotTypeData)
    case XValues => Some(spec.xValues)
    case XOffset => Some(spec.xOffset)
    case XLabel => Some(spec.xLabel)
    case XScale => Some(spec.xScale)
    case YLabel => Some(spec.yLabel)
    case YOffset => Some(spec.yOffset)
    case LegendEntry => Some(spec.legendEntry)
    case YValues => spec.yValues
    case YScale => spec.yScale
    case DatasetId => spec.datasetId
    case Column(_) => Lookup(spec.others, a)
  }

  /** `VisualizationSpec(plotId, settings, figId)`: the figure and plot ids,
      overridden by any given setting of the same name, every given setting,
      then the defaults in the order the constructor applies them (the plot
      name copies the plot id, the x label the x values already resolved, the
      legend entry the dataset ids). Fails like `getattr(self, 'datasetId')`
      when neither a legend entry nor a dataset id is given. */
  function Make(plotId: Value, settings: Settings, figId: string): (r: Result<Spec, Error>)
    requires Keyed(settings)
    ensures r.Failure? <==> LegendEntry !in settings && DatasetId !in settings
    ensures r.Failure? ==> r.error == MissingAttribute(DATASET_ID)
    ensures r.Success? ==> forall a | a in settings :: Attribute(r.value, a) == Some(settings[a])
    ensures r.Success? && FigureId !in settings ==> r.value.figureId == Text(figId)
    ensures r.Success? && PlotId !in settings ==> r.value.plotId == One(plotId)
    ensures r.Success? && PlotName !in settings ==> r.value.plotName == r.value.plotId
    ensures r.Success? && PlotTypeSimulation !in settings ==> r.value.plotTypeSimulation == Text(LINE_PLOT)
    ensures r.Success? && PlotTypeData !in settings ==> r.value.plotTypeData == Text(MEAN_AND_SD)
    ensures r.Success? && XValues !in settings ==> r.value.xValues == Text(TIME)
    ensures r.Success? && XOffset !in settings ==> r.value.xOffset == One(Num(0.0))
    ensures r.Success? && XLabel !in settings ==> r.value.xLabel == r.value.xValues
    ensures r.Success? && XScale !in settings ==> r.value.xScale == Text(LIN)
    ensures r.Success? && YLabel !in settings ==> r.value.yLabel == Text("values")
    ensures r.Success? && YOffset !in settings ==> r.value.yOffset == One(Num(0.0))
    ensures r.Success? && LegendEntry !in settings ==> r.value.legendEntry == settings[DatasetId]
    ensures r.Success? ==> r.value.yValues == Lookup(settings, YValues)
    ensures r.Success? ==> r.value.yScale == Lookup(settings, YScale)
    ensures r.Success? ==> r.value.datasetId == Lookup(settings, DatasetId)
    ensures r.Success? ==> forall a | a in r.value.others :: a.Column? && a in settings
  {
    if LegendEntry !in settings && DatasetId !in settings then
      Failure(MissingAttribute(DATASET_ID))
    else
      BuildKeepsSettings(plotId, settings, figId);
      Success(Build(plotId, settings, figId))
  }

  /** The spec the constructor builds once a legend entry or dataset id is
      known to be there. */
  function Build(plotId: Value, settings: Settings, figId: string): Spec {
    var id := OrElse(Lookup(settings, PlotId), One(plotId));
    var xValues := OrElse(Lookup(settings, XValues), Text(TIME));
    var datasetId := Lookup(settings, DatasetId);
    Spec(
      figureId := OrElse(Lookup(settings, FigureId), Text(figId)),
      plotId := id,
      plotName := OrElse(Lookup(settings, PlotName), id),
      plotTypeSimulation := OrElse(Lookup(settings, PlotTypeSimulation), Text(LINE_PLOT)),
      plotTypeData := OrElse(Lookup(settings, PlotTypeData), Text(MEAN_AND_SD)),
      xValues := xValues,
      xOffset := OrElse(Lookup(settings, XOffset), One(Num(0.0))),
      xLabel := OrElse(Lookup(settings, XLabel), xValues),
      xScale := OrElse(Lookup(settings, XScale), Text(LIN)),
      yLabel := OrElse(Lookup(settings, YLabel), Text("values")),
      yOffset := OrElse(Lookup(settings, YOffset), One(Num(0.0))),
      legendEntry := OrElse(Lookup(settings, LegendEntry), OrElse(datasetId, Text(""))),
      yValues := Lookup(settings, YValues),
      yScale := Lookup(settings, YScale),
      datasetId := datasetId,
      others := map a | a in settings && a.Column? :: settings[a])
  }

  lemma BuildKeepsSettings(plotId: Value, settings: Settings, figId: string)
    ensures forall a | a in settings :: Attribute(Build(plotId, settings, figId), a) == Some(settings[a])
  {
    var spec := Build(plotId, settings, figId);
    forall a | a in settings
      ensures Attribute(spec, a) == Some(settings[a])
    {
      if a.Column? {
        assert a in spec.others;
      }
    }
  }

  /** The attribute dictionary of a spec (`vars(spec)`). */
  function AsSettings(spec: Spec): (s: Settings)
    ensures forall name | Column(name) in s :: Column(name) in spec.others
  {
    var others := map a | a in spec.others && a.Column? :: spec.others[a];
    var withY := if spec.yValues.Some? then others[YValues := spec.yValues.value] else others;
    var withScale := if spec.yScale.Some? then withY[YScale := spec.yScale.value] else withY;
    var withData := if spec.datasetId.Some? then withScale[DatasetId := spec.datasetId.value] else withScale;
    withData[FigureId := spec.figureId][PlotId := spec.plotId][PlotName := spec.plotName]
      [PlotTypeSimulation := spec.plotTypeSimulation][PlotTypeData := spec.plotTypeData]
      [XValues := spec.xValues][XOffset := spec.xOffset][XLabel := spec.xLabel]
      [XScale := spec.xScale][YLabel := spec.yLabel][YOffset := spec.yOffset]
      [LegendEntry := spec.legendEntry]
  }

  /** Reading an attribute back from the dictionary gives the spec's
      attribute. */
  lemma AsSettingsAttributes(spec: Spec)
    ensures forall a :: Lookup(AsSettings(spec), a) == Attribute(spec, a)
  {
    forall a
      ensures Lookup(AsSettings(spec), a) == Attribute(spec, a)
    {
    }
  }

  /** The known attributes of the dictionary, one by one. */
  lemma AsSettingsFields(spec: Spec)
    ensures var s := AsSettings(spec);
      && Lookup(s, FigureId) == Some(spec.figureId)
      && Lookup(s, PlotId) == Some(spec.plotId)
      && Lookup(s, PlotName) == Some(spec.plotName)
      && Lookup(s, PlotTypeSimulation) == Some(spec.plotTypeSimulation)
      && Lookup(s, PlotTypeData) == Some(spec.plotTypeData)
      && Lookup(s, XValues) == Some(spec.xValues)
      && Lookup(s, XOffset) == Some(spec.xOffset)
      && Lookup(s, XLabel) == Some(spec.xLabel)
      && Lookup(s, XScale) == Some(spec.xScale)
      && Lookup(s, YLabel) == Some(spec.yLabel)
      && Lookup(s, YOffset) == Some(spec.yOffset)
      && Lookup(s, LegendEntry) == Some(spec.legendEntry)
      && Lookup(s, YValues) == spec.yValues
      && Lookup(s, YScale) == spec.yScale
      && Lookup(s, DatasetId) == spec.datasetId
  {
    AsSettingsAttributes(spec);
    var s := AsSettings(spec);
    assert Lookup(s, FigureId) == Attribute(spec, FigureId);
    assert Lookup(s, PlotId) == Attribute(spec, PlotId);
    assert Lookup(s, PlotName) == Attribute(spec, PlotName);
    assert Lookup(s, PlotTypeSimulation) == Attribute(spec, PlotTypeSimulation);
    assert Lookup(s, PlotTypeData) == Attribute(spec, PlotTypeData);
    assert Lookup(s, XValues) == Attribute(spec, XValues);
    assert Lookup(s, XOffset) == Attribute(spec, XOffset);
    assert Lookup(s, XLabel) == Attribute(spec, XLabel);
    assert Lookup(s, XScale) == Attribute(spec, XScale);
    assert Lookup(s, YLabel) == Attribute(spec, YLabel);
    assert Lookup(s, YOffset) == Attribute(spec, YOffset);
    assert Lookup(s, LegendEntry) == Attribute(spec, LegendEntry);
    assert Lookup(s, YValues) == Attribute(spec, YValues);
    assert Lookup(s, YScale) == Attribute(spec, YScale);
    assert Lookup(s, DatasetId) == Attribute(spec, DatasetId);
  }

  /** The other attributes of the dictionary are the spec's others. */
  lemma AsSettingsOthers(spec: Spec)
    requires forall a | a in spec.others :: a.Column?
    ensures (map a | a in AsSettings(spec) && a.Column? :: AsSettings(spec)[a]) == spec.others
  {
    var settings := AsSettings(spec);
    AsSettingsAttributes(spec);
    forall a | a in spec.others
      ensures Lookup(settings, a) == Some(spec.others[a])
    {
      assert Lookup(settings, a) == Attribute(spec, a);
    }
    forall a | a in settings && a.Column?
      ensures a in spec.others
    {
      assert Lookup(settings, a) == Attribute(spec, a);
    }
  }

  /** Building from settings that hold exactly the attributes of `spec`
      gives `spec` back. */
  lemma BuildFromAttributes(plotId: Value, settings: Settings, figId: string, spec: Spec)
    requires Lookup(settings, FigureId) == Some(spec.figureId)
    requires Lookup(settings, PlotId) == Some(spec.plotId)
    requires Lookup(settings, PlotName) == Some(spec.plotName)
    requires Lookup(settings, PlotTypeSimulation) == Some(spec.plotTypeSimulation)
    requires Lookup(settings, PlotTypeData) == Some(spec.plotTypeData)
    requires Lookup(settings, XValues) == Some(spec.xValues)
    requires Lookup(settings, XOffset) == Some(spec.xOffset)
    requires Lookup(settings, XLabel) == Some(spec.xLabel)
    requires Lookup(settings, XScale) == Some(spec.xScale)
    requires Lookup(settings, YLabel) == Some(spec.yLabel)
    requires Lookup(settings, YOffset) == Some(spec.yOffset)
    requires Lookup(settings, LegendEntry) == Some(spec.legendEntry)
    requires Lookup(settings, YValues) == spec.yValues
    requires Lookup(settings, YScale) == spec.yScale
    requires Lookup(settings, DatasetId) == spec.datasetId
    requires (map a | a in settings && a.Column? :: settings[a]) == spec.others
    ensures Build(plotId, settings, figId) == spec
  {
  }

  /** Every attribute of a spec is set, so constructing again from its own
      attributes reproduces it, whatever plot and figure ids are passed. */
  lemma MakeFromOwnAttributes(plotId: Value, spec: Spec, figId: string)
    requires forall a | a in spec.others :: a.Column?
    requires Keyed(spec.others)
    ensures Keyed(AsSettings(spec))
    ensures Make(plotId, AsSettings(spec), figId) == Success(spec)
  {
    AsSettingsKeyed(spec);
    AsSettingsFields(spec);
    AsSettingsOthers(spec);
    BuildFromAttributes(plotId, AsSettings(spec), figId, spec);
  }

  /** The attribute dictionary of a spec is keyed by names as the
      constructor's is. */
  lemma AsSettingsKeyed(spec: Spec)
    requires forall a | a in spec.others :: a.Column?
    requires Keyed(spec.others)
    ensures Keyed(AsSettings(spec))
  {
    var settings := AsSettings(spec);
    AsSettingsAttributes(spec);
    forall name | Column(name) in settings
      ensures name !in KNOWN_NAMES
    {
      assert Lookup(settings, Column(name)) == Attribute(spec, Column(name));
    }
  }

  /** Filling in defaults a second time changes nothing. */
  lemma MakeIdempotent(plotId: Value, settings: Settings, figId: string)
    requires Keyed(settings)
    requires Make(plotId, settings, figId).Success?
    ensures Make(plotId, AsSettings(Make(plotId, settings, figId).value), figId)
         == Make(plotId, settings, figId)
  {
    MakeFromOwnAttributes(plotId, Make(plotId, settings, figId).value, figId);
  }

  /** The attributes the constructor defaults when they are absent. */
  predicate AllDefaultsGiven(settings: Settings) {
    && PlotName in settings && PlotTypeSimulation in settings && PlotTypeData in settings
    && XValues in settings && XOffset in settings && XLabel in settings && XScale in settings
    && YLabel in settings && YOffset in settings && LegendEntry in settings
  }

  /** With every defaulted setting given, the attributes are exactly the
      given settings plus the figure and plot ids (the `__dict__` comparison
      of the constructor's unit test). */
  lemma MakeKeepsExplicitSettings(plotId: Value, settings: Settings, figId: string)
    requires Keyed(settings) && AllDefaultsGiven(settings)
    ensures Make(plotId, settings, figId).Success?
    ensures AsSettings(Make(plotId, settings, figId).value)
         == map[FigureId := Text(figId), PlotId := One(plotId)] + settings
  {
    var spec := Make(plotId, settings, figId).value;
    var expected := map[FigureId := Text(figId), PlotId := One(plotId)] + settings;
    forall a
      ensures Lookup(AsSettings(spec), a) == Lookup(expected, a)
    {
      ExplicitAttribute(plotId, settings, figId, a);
    }
    SameLookupsSameMap(AsSettings(spec), expected);
  }

  /** One attribute of a spec built with every default given: the given
      setting, or the figure or plot id, or nothing. */
  lemma ExplicitAttribute(plotId: Value, settings: Settings, figId: string, a: Attr)
    requires Keyed(settings) && AllDefaultsGiven(settings)
    ensures Make(plotId, settings, figId).Success?
    ensures Lookup(AsSettings(Make(plotId, settings, figId).value), a)
         == Lookup(map[FigureId := Text(figId), PlotId := One(plotId)] + settings, a)
  {
    var spec := Build(plotId, settings, figId);
    assert Make(plotId, settings, figId) == Success(spec);
    BuildAttribute(plotId, settings, figId, a);
    AsSettingsAttributes(spec);
  }

  lemma BuildAttribute(plotId: Value, settings: Settings, figId: string, a: Attr)
    requires AllDefaultsGiven(settings)
    ensures Attribute(Build(plotId, settings, figId), a)
         == Lookup(map[FigureId := Text(figId), PlotId := One(plotId)] + settings, a)
  {
    BuildKeepsSettings(plotId, settings, figId);
    if a.Column? && a !in settings {
      assert a !in Build(plotId, settings, figId).others;
    }
  }

  lemma SameLookupsSameMap(m1: Settings, m2: Settings)
    requires forall a :: Lookup(m1, a) == Lookup(m2, a)
    ensures m1 == m2
  {
    forall a | a in m1
      ensures a in m2 && m1[a] == m2[a]
    {
      assert Lookup(m1, a) == Lookup(m2, a);
    }
    forall a | a in m2
      ensures a in m1
    {
      assert Lookup(m1, a) == Lookup(m2, a);
    }
  }
}

=== FILE: wrappers.dfy ===
/** Optional values and results-or-errors, used for the absent fields and the
    raised exceptions of the plotting pipeline. */
module Wrappers {

  /** A value that may be absent (Python's `None`). */
  datatype Option<+T> = None | Some(value: T)

  /** Either a computed value or the error the pipeline would raise. */
  datatype Result<+R, +E> = Success(value: R) | Failure(error: E) {

    predicate IsFailure() {
      Failure?
    }

    function PropagateFailure<U>(): Result<U, E>
      requires Failure?
    {
      Failure(error)
    }

    function Extract(): R
      requires Success?
    {
      value
    }
  }
}
